=== FILE: README.md ===
# colorly-lite in Dafny

A verified model of colorly-lite's `ColorlyLite` class (`index.js`). The class is a small colour library:
- It parses a colour string (`#rrggbb`, `#rgb` or `rgb(r, g, b)`) into an RGB triple.
- It prints that triple as hex.
- It converts it to integer HSL and back.
- It lightens, darkens, saturates and desaturates it.
- It derives the complementary and analogous colours.
- It computes the WCAG contrast ratio between two colours.

A colour handle holds one RGB value that never changes after construction, and every method computes a new value from it. The model therefore has these parts:
- an immutable `Rgb` datatype;
- an `Hsl` datatype for the integer HSL view;
- one function per method;
- a `Result` type in place of the two thrown errors, "Unsupported color format" and "Invalid RGB format".

`new ColorlyLite(x)` corresponds to `ColorParser.ParseColor(x)`. Every method takes the handle's colour as an `Rgb` argument `c` with `c.InRange()`, which every successful parse guarantees.

Modules, one per file:

- `ColorValues` (`values.dfy`): `Rgb`, `Hsl`, the errors, and `Option`/`Result`. `JsValue` stands for "a string, or any other JavaScript value".
- `HexNumerals` (`hex.dfy`): `parseInt(s, 16)`, `n.toString(16)` and `padStart(2, "0")`.
- `DigitRuns` (`decimal.dfy`): what `s.match(/\d+/g)` returns, and `parseInt` on one digit run.
- `ColorParser` (`parser.dfy`): `hexToRgb`, `rgbStringToRgb` and `parseColor`.
- `ColorConvert` (`convert.dfy`): `toHex`, `toHsl` and `hslToHex`. `toHsl` and `hslToHex` are computed over exact rationals (`real`), with `Math.round(x)` as `floor(x + 1/2)`.
- `ColorTone` (`tone.dfy`): `lighten`, `darken`, `saturate` and `desaturate`.
- `ColorHarmony` (`harmony.dfy`): `getComplementary` and `getAnalogous`, with JavaScript's truncating `%`.
- `ColorContrast` (`contrast.dfy`): `relativeLuminance` and `contrastWith`.

Two behaviours of the code are easy to miss, and the model keeps both:
- **Hue can be 360.** `toHsl` rounds `h * 360`, so `#ff0001`, whose hue is 359.76, gets hue 360 (`ColorConvert.HueCanReach360`). The model therefore takes hues in `[0, 360]`, and proves that hue 360 prints the same as hue 0 (`ColorConvert.Hue360IsHue0`).
- **Clamping is one-sided.** Each adjustment clamps only on the side it moves towards: `lighten` and `saturate` cap at 100, `darken` and `desaturate` floor at 0. Saturation and lightness stay in `[0, 100]` for a non-negative amount, but a negative amount can leave that range. The contracts say which bound holds for every amount and which hold only for non-negative amounts.

## Model

| member | source | states |
|---|---|---|
| `HexNumerals.HexValue` | index.js:36 | `parseInt(hex, 16)` of n digits is below 16^n |
| `HexNumerals.HexValueAppend` | index.js:36 | reading a numeral in two parts: the high part's value times 16^(length of low part) plus the low part's value |
| `HexNumerals.HexValueTwo` | index.js:36 | a two-digit numeral is high digit × 16 + low digit |
| `HexNumerals.Base16` | index.js:63 | `n.toString(16)` of a non-negative `n` is a non-empty lower-case numeral whose value is `n`; it is one digit exactly when `n < 16`; it has no leading zero (a numeral of two or more digits, or that of a positive `n`, does not start with `0`) |
| `HexNumerals.JsToString16` | index.js:63 | `n.toString(16)` of any integer: for `n >= 0` a lower-case numeral whose value is `n`; for `n < 0` a minus sign followed by a lower-case numeral whose value is `-n`; one character exactly when `0 <= n < 16`; never a leading zero, neither at the front of a numeral of two or more digits nor after the minus sign |
| `HexNumerals.PadStart` | index.js:63 | `padStart(width, fill)` is as long as the longer of `width` and `s`, ends with `s`, and is `fill` before it |
| `HexNumerals.ChannelHex` | index.js:63 | a channel in `[0, 255]` prints as exactly two lower-case hex digits whose value is the channel |
| `HexNumerals.ChannelHexOfValue` | index.js:63 | every lower-case two-digit numeral is what its own value prints as (printing is onto) |
| `DigitRuns.LeadingDigits` | index.js:46 | the length of the longest all-digit prefix: all digits before it, a non-digit (or the end) after |
| `DigitRuns.Runs` | index.js:46 | `match(/\d+/g)`: every run is non-empty and all digits, and the runs concatenated are exactly the string's digits in order |
| `DigitRuns.RunsSkipNonDigits` | index.js:46 | a prefix without digits adds no runs |
| `DigitRuns.RunsSplitAtNonDigit` | index.js:46 | a run of digits followed by a non-digit is a run of its own |
| `DigitRuns.RunsInsertNonDigit` | index.js:46 | a non-digit inserted at the start or right after another non-digit leaves the runs unchanged |
| `DigitRuns.DecimalValue` | index.js:48-50 | `parseInt` of a run of `k` decimal digits is below `10^k`, and at least `10^(k-1)` when the first digit is not `0` |
| `DigitRuns.DecimalValueLeadingZero` | index.js:48-50 | a leading zero does not change `parseInt`'s value |
| `ColorParser.RemoveFirst` | index.js:26 | `replace("#", "")` removes one `#` if there is one and is the identity otherwise; a leading `#` is the one removed |
| `ColorParser.RemoveFirstSplices` | index.js:26 | the first `#` is removed wherever it stands, and nothing else changes |
| `ColorParser.Doubled` | index.js:28-31 | `split("").map(c => c + c).join("")` has twice the length and character i/2 at position i |
| `ColorParser.Expanded` | index.js:27-32 | the expansion is six characters exactly when the input has 6 or 3; it keeps "all hex digits" in both directions; it is the identity except at length 3, and at length 3 it is the string with every character doubled |
| `ColorParser.HexToRgb` | index.js:25-42 | a colour comes back exactly when the rest after removing `#` is 6 or 3 hex digits; the channels are in `[0, 255]`; for 6 digits they are the three digit pairs; for 3 they are 17 × each digit |
| `ColorParser.RgbStringToRgb` | index.js:45-57 | success exactly when there are at least three digit runs and the first three are ≤ 255; the channels are those runs; every failure is "Invalid RGB format" |
| `ColorParser.ParseColor` | index.js:7-22 | a non-string, or a string with neither prefix, is "Unsupported color format"; on `#` it succeeds exactly when `hexToRgb` does, with its value, and fails only with "Unsupported color format"; an `rgb` string gives exactly what `rgbStringToRgb` gives, so "Invalid RGB format" arises exactly from an `rgb` string that `rgbStringToRgb` rejects; success is always in range |
| `ColorParser.HexNotation` | index.js:7-42 | `#` followed by 6 (or 3) hex digits parses to the digit pairs (or 17 × each digit) |
| `ColorParser.HexWrongLength` | index.js:33-35 | `#` followed by any other number of characters is "Unsupported color format" |
| `ColorParser.RgbNotation` | index.js:45-57 | `rgb(R, G, B)` with decimal numerals parses to `(R, G, B)` when all are ≤ 255, and otherwise to "Invalid RGB format" |
| `ColorParser.SignIgnored` | index.js:45-56 | in any `rgb…` string, inserting a minus sign that does not follow a digit (e.g. before a numeral after `(`, a comma or a space) gives the same result; so the `< 0` tests can never fire |
| `ColorParser.NeitherPrefix` | index.js:19-21 | a string starting with neither `#` nor `rgb` is "Unsupported color format" |
| `ColorParser.ParseLongHexExample` | test/colorly-lite.test.js:5-8 | `#ff5733` is `(255, 87, 51)` |
| `ColorParser.ParseShortHexExample` | test/colorly-lite.test.js:10-13 | `#f53` is `(255, 85, 51)` |
| `ColorParser.ParseRgbExample` | test/colorly-lite.test.js:15-18 | `rgb(255, 87, 51)` is `(255, 87, 51)` |
| `ColorParser.ParseUnsupportedExample` | test/colorly-lite.test.js:20-24 | `invalidColor` is "Unsupported color format" |
| `ColorParser.ParseInvalidHexExample` | test/colorly-lite.test.js:101-105 | `#invalid` is "Unsupported color format" |
| `ColorParser.ParseInvalidRgbExample` | test/colorly-lite.test.js:107-111 | `rgb(300, -20, 500)` is "Invalid RGB format" |
| `ColorConvert.ToHex` | index.js:60-65 | an in-range colour prints as `#` and six lower-case hex digits |
| `ColorConvert.ToHexInjective` | index.js:60-65 | two in-range colours print the same exactly when they are equal |
| `ColorConvert.OnlyGrayPrintsAsGray` | index.js:60-65 | no in-range colour other than `{ r: 128, g: 128, b: 128 }` prints as `#808080` |
| `ColorConvert.HexRoundTrip` | index.js:60-65 | `hexToRgb(toHex(c)) == c`, and parsing `toHex(c)` gives back `c`, for every in-range `c` |
| `ColorConvert.HexStringRoundTrip` | index.js:25-65 | a lower-case `#rrggbb` string, parsed and printed, is itself |
| `ColorConvert.PrintsAs` | index.js:60-65 | a colour whose channels are the values of three two-digit lower-case numerals prints as `#` followed by those six digits |
| `ColorConvert.ToHexExample` | test/colorly-lite.test.js:27-30 | `#ff5733` prints back as `#ff5733` |
| `ColorConvert.Round` | index.js:98-100 | `Math.round(x)` is within one half of `x` (halves go up) |
| `ColorConvert.ToExactHsl` | index.js:68-96 | before rounding: hue in `[0, 1)` turns, saturation and lightness in `[0, 1]`; saturation is 0 exactly for grays; a gray has hue 0 and lightness `r / 255` |
| `ColorConvert.ToHsl` | index.js:68-102 | hue in `[0, 360]`, saturation and lightness in `[0, 100]`; a gray has hue and saturation 0 |
| `ColorConvert.HueCanReach360` | index.js:98 | `#ff0001` has hue 360 after rounding |
| `ColorConvert.ToHslExample` | test/colorly-lite.test.js:32-35 | `#ff5733` is hue 11, saturation 100, lightness 60 |
| `ColorConvert.JsRemReal` | index.js:165 | `a % m` differs from `a` by a whole multiple of `m`; it lands in `[0, m)` for `a >= 0` and in `(-m, 0]` for `a < 0` (the sign of the dividend) |
| `ColorConvert.HslChannel` | index.js:164-173 | `f(n)` of in-range saturation and lightness is a channel in `[0, 255]`; without saturation it is the gray level of the lightness |
| `ColorConvert.Level` | index.js:166-172 | the rounded level is in `[0, 255]` for in-range percentages, and is the gray level when saturation is 0 |
| `ColorConvert.GrayLevel` | index.js:166-172 | the gray of lightness `l` is in `[0, 255]`: 0 at lightness 0, 255 at 100 |
| `ColorConvert.HslToRgb` | index.js:161-176 | the channels `f(0)`, `f(8)`, `f(4)` of an in-range HSL are in range; without saturation they are the gray of the lightness |
| `ColorConvert.HslToHex` | index.js:161-177 | an in-range HSL prints as `#` and six lower-case hex digits |
| `ColorConvert.FullLightness` | index.js:166-172 | lightness 100 is white whatever the hue and saturation |
| `ColorConvert.ZeroLightness` | index.js:166-172 | lightness 0 is black whatever the hue and saturation |
| `ColorConvert.UnsaturatedIgnoresHue` | index.js:166-172 | without saturation, changing the hue changes nothing |
| `ColorConvert.HuePeriodic` | index.js:165 | non-negative hues 360 apart give the same channels (truncating `%` is not periodic below 0) |
| `ColorConvert.Hue360IsHue0` | index.js:165 | hue 360, which `toHsl` can return, prints as hue 0 |
| `ColorConvert.WhiteHex` | index.js:60-65 | white prints as `#ffffff` |
| `ColorConvert.BlackHex` | index.js:60-65 | black prints as `#000000` |
| `ColorConvert.HslToRgbExample` | test/colorly-lite.test.js:37-41 | hue 11, saturation 100, lightness 60 gives red 255, green 88, blue 51 |
| `ColorConvert.HslHex` | test/colorly-lite.test.js:37-41 | hue 11, saturation 100, lightness 60 prints as `#ff5833` |
| `ColorConvert.HslToHexExample` | test/colorly-lite.test.js:37-41 | `hslToHex` of the HSL of `#ff5733` is `#ff5833`, one green step off the original |
| `ColorTone.Lightened` | index.js:107 | the new lightness is at most 100 and at most `l + amount`, and equals one of them; hue and saturation unchanged; in range for a non-negative amount |
| `ColorTone.Darkened` | index.js:114 | the new lightness is at least 0 and at least `l - amount`, and equals one of them; hue and saturation unchanged |
| `ColorTone.Saturated` | index.js:121 | the new saturation is at most 100 and at most `s + amount`, and equals one of them; hue and lightness unchanged |
| `ColorTone.Desaturated` | index.js:128 | the new saturation is at least 0 and at least `s - amount`, and equals one of them; hue and lightness unchanged |
| `ColorTone.LightenThenDarken` | index.js:105-116 | darkening by the same amount undoes a lightening that did not reach 100 |
| `ColorTone.DarkenThenLighten` | index.js:105-116 | lightening by the same amount undoes a darkening that did not reach 0 |
| `ColorTone.SaturateThenDesaturate` | index.js:119-130 | desaturating undoes a saturation that did not reach 100 |
| `ColorTone.DesaturateThenSaturate` | index.js:119-130 | saturating undoes a desaturation that did not reach 0 |
| `ColorTone.TonesMonotone` | index.js:105-130 | a larger amount moves lightness or saturation at least as far |
| `ColorTone.LightenTwice` | index.js:105-116 | two non-negative steps are one step by their sum |
| `ColorTone.PrintedExtremes` | index.js:161-177 | `hslToHex` of any HSL with lightness 100 is `#ffffff`, and with lightness 0 it is `#000000` |
| `ColorTone.Lighten` | index.js:105-109 | a colour for a non-negative amount; white as soon as `l + amount ≥ 100`, whatever the hue |
| `ColorTone.Darken` | index.js:112-116 | a colour for a non-negative amount; black as soon as `l ≤ amount` |
| `ColorTone.Saturate` | index.js:119-123 | a colour for a non-negative amount; white stays white and black stays black |
| `ColorTone.Desaturate` | index.js:126-130 | a colour for a non-negative amount; once `s ≤ amount` it is the gray of the colour's own lightness |
| `ColorTone.GrayStaysGray` | index.js:105-130 | for a non-negative amount, lightening, darkening or desaturating a gray prints a gray |
| `ColorTone.LightenHex` | test/colorly-lite.test.js:44-47 | hue 11, saturation 100, lightness 60 lightened by 20 prints as `#ffac99` |
| `ColorTone.DarkenHex` | test/colorly-lite.test.js:49-52 | the same HSL darkened by 20 prints as `#cc2500` |
| `ColorTone.LightenExample` | test/colorly-lite.test.js:44-47 | `lighten(20)` of `#ff5733` is `#ffac99` |
| `ColorTone.DarkenExample` | test/colorly-lite.test.js:49-52 | `darken(20)` of `#ff5733` is `#cc2500` |
| `ColorTone.GrayToHslExample` | test/colorly-lite.test.js:54-57 | `#808080` is hue 0, saturation 0, lightness 50 |
| `ColorTone.SaturateExample` | test/colorly-lite.test.js:54-57 | `saturate(20)` of `#808080` is not `#808080` |
| `ColorTone.DesaturateExample` | test/colorly-lite.test.js:59-62 | `desaturate(20)` of `#ff5733` is not `#ff5733` |
| `ColorTone.ExtremesExample` | test/colorly-lite.test.js:93-99 | `darken(100)` of white is `#000000`, and `lighten(100)` of black is `#ffffff` |
| `ColorTone.OvershootExample` | test/colorly-lite.test.js:113-117 | `lighten(200)` of `#ff5733` is `#ffffff`, and `darken(200)` is `#000000` |
| `ColorHarmony.JsRem360` | index.js:135 | `% 360` lies strictly between -360 and 360, is congruent to the dividend, and has its sign |
| `ColorHarmony.Complementary` | index.js:133-136 | the hue moves by 180 modulo 360 and lands in `[0, 360)` for any hue ≥ -180; saturation and lightness unchanged |
| `ColorHarmony.ComplementaryTwice` | index.js:135 | complementing twice gives back the hue modulo 360 |
| `ColorHarmony.ComplementaryTwicePrints` | index.js:133-137 | for every hue `toHsl` returns (360 included), complementing twice prints the original colour |
| `ColorHarmony.Analogous` | index.js:140-147 | three entries: hue + 30, the colour itself, hue - 30 (modulo 360), in that order; both neighbours in `[0, 360)` for hue ≥ -30; they differ from the colour only in hue |
| `ColorHarmony.AnalogousNeighbours` | index.js:143-145 | for hues in `[0, 360)`, the entry behind the entry ahead is the colour, and the other way round |
| `ColorHarmony.AnalogousNeighboursPrint` | index.js:143-145 | for every hue `toHsl` can return, 360 included, the entry behind the entry ahead prints as the colour does, and the other way round |
| `ColorHarmony.GetComplementary` | index.js:133-137 | a well-formed hex string; a gray's complement is `hslToHex` of the gray's own HSL (which need not be the gray's `toHex`: rounding the lightness to a whole percent can move it) |
| `ColorHarmony.GetAnalogous` | index.js:140-147 | three well-formed hex strings; the middle one is `hslToHex` of the colour's own HSL; for a gray all three are equal |
| `ColorHarmony.ComplementaryHex` | test/colorly-lite.test.js:65-68 | the complement of hue 11, saturation 100, lightness 60 prints as `#33daff` |
| `ColorHarmony.AheadHex` | test/colorly-lite.test.js:73 | hue 41, saturation 100, lightness 60 prints as `#ffbe33` |
| `ColorHarmony.BehindHex` | test/colorly-lite.test.js:75 | hue 341, saturation 100, lightness 60 prints as `#ff3374` |
| `ColorHarmony.ComplementaryExample` | test/colorly-lite.test.js:65-68 | `getComplementary()` of `#ff5733` is `#33daff` |
| `ColorHarmony.AnalogousHues` | index.js:140-147 | the analogous hues of hue 11 are 41, 11 and 341 |
| `ColorHarmony.AnalogousExample` | test/colorly-lite.test.js:70-77 | `getAnalogous()` of `#ff5733` is `#ffbe33`, `#ff5833`, `#ff3374` |
| `ColorContrast.Linearize` | index.js:181-184 | a channel in `[0, 255]` linearises into `[0, 1]`; 0 goes to 0 and 255 to the power curve at 1 |
| `ColorContrast.RelativeLuminance` | index.js:180-186 | the luminance of an in-range colour is in `[0, 1]`; a gray's is its channel's linear value (the weights sum to 1) |
| `ColorContrast.ContrastRatio` | index.js:155-157 | the unrounded ratio is at least 1; it is exactly 1 when the luminances are equal; at most 21 for luminances in `[0, 1]` |
| `ColorContrast.ContrastRatioSymmetric` | index.js:155-157 | the ratio does not depend on argument order |
| `ColorContrast.ContrastWith` | index.js:150-158 | fails exactly when parsing the argument fails, with the parser's error; otherwise a whole number from 1 to 21 |
| `ColorContrast.ContrastWithSymmetric` | index.js:150-158 | for any strings `sa`, `sb` that parse to `a` and `b` (any accepted notation), `a.contrastWith(sb) == b.contrastWith(sa)` |
| `ColorContrast.ContrastWithHexSymmetric` | index.js:150-158 | in particular `a.contrastWith(toHex(b)) == b.contrastWith(toHex(a))` |
| `ColorContrast.ContrastWithItself` | index.js:150-158 | a colour against its own hex string has contrast 1 |
| `ColorContrast.BlackOnWhite` | test/colorly-lite.test.js:80-84 | white against `#000000` is 21, given that the power curve maps 1 to 1 |

## Left out

- Floating point. `toHsl`, `hslToHex` and `relativeLuminance` compute in IEEE doubles. The model computes them in exact rationals with `Math.round` as `floor(x + 1/2)`. A result that lands within rounding error of a half could differ. Every example in the library's test suite lands far from a half (green is 88.4 in `#ff5833`, for instance), so the model's exact results agree with the doubles there.
- ToHsl: the contract states the ranges and the gray case, not the exact output of the double arithmetic. The worked examples pin down particular outputs one by one.
- HslToHex: the contract states the output format, the gray case and the extremes, not the exact channels. The worked examples pin down particular outputs one by one.
- Linearize: `x ** 2.4` has no exact rational value. It is a parameter `pow`, assumed only to map `[0, 1]` into `[0, 1]`. `BlackOnWhite` also assumes `pow(1) == 1`.
- RelativeLuminance: its bounds rest on the same assumption about `pow`. The low-contrast example for `#aaaaaa` against `#bbbbbb` needs actual values of `pow`, so it is not modelled.
- The tone amounts are integers. The library accepts any number, and fractional amounts are not modelled.
- Default arguments. `lighten()` and the other three operations with no argument use `ColorTone.DefaultAmount` (20); callers pass it explicitly.
- `parseInt` precision. A digit run is read as an exact natural number. In the library a very long run becomes an imprecise double, which is still above 255 and so still rejected.
- Strings are sequences of characters. JavaScript's UTF-16 code units are not distinguished from characters.
- Non-integer channels. Channels are integers here. In the library every channel printed comes from `Math.round` or `parseInt`, so it is an integer there too. `toString(16)` of a negative channel (a minus sign) or one above 255 (three digits) is modelled, though no in-range input produces one.
- `index.d.ts` declares `toRgb` and static helpers. `index.js` does not implement them, so they are not modelled.
- `this.color` is read directly in tests. Here the colour handle is the `Rgb` value itself.

=== FILE: contrast.dfy ===
/**
 * `relativeLuminance` and `contrastWith`: the relative luminance of an RGB
 * colour and the rounded contrast ratio of two colours, as the WCAG 2.x
 * glossary defines them ("relative luminance", "contrast ratio").
 *
 * The transfer curve raises to the power 2.4, which has no exact rational
 * value; it is the parameter `pow`, of which only what the proofs need is
 * assumed: it maps `[0, 1]` into `[0, 1]`.
 */
module ColorContrast {
  import opened ColorValues
  import opened ColorParser
  import opened ColorConvert

  /** What is assumed of `x ** 2.4`: it maps the unit interval into itself. */
  ghost predicate IsUnitPower(pow: real -> real) {
    forall x :: 0.0 <= x <= 1.0 ==> 0.0 <= pow(x) <= 1.0
  }

  /**
   * The inner `gamma(c)`: a channel in `[0, 255]` made linear, with the
   * straight segment below `0.03928` and the power curve above it.
   */
  function Linearize(c: int, pow: real -> real): (v: real)
    ensures 0 <= c <= 255 && IsUnitPower(pow) ==> 0.0 <= v <= 1.0
    ensures c == 0 ==> v == 0.0
    ensures c == 255 ==> v == pow(1.0)
  {
    var u := Unit(c);
    if u <= 0.03928 then u / 12.92 else pow((u + 0.055) / 1.055)
  }

  /**
   * `relativeLuminance({ r, g, b })`: the weighted sum of the linear
   * channels. The weights add up to 1, so a gray's luminance is its
   * channel's linear value and every colour's lies in `[0, 1]`.
   */
  function RelativeLuminance(c: Rgb, pow: real -> real): (y: real)
    ensures c.InRange() && IsUnitPower(pow) ==> 0.0 <= y <= 1.0
    ensures c.IsGray() ==> y == Linearize(c.r, pow)
  {
    0.2126 * Linearize(c.r, pow) + 0.7152 * Linearize(c.g, pow) + 0.0722 * Linearize(c.b, pow)
  }

  /**
   * `(max(l1, l2) + 0.05) / (min(l1, l2) + 0.05)`, before rounding. It is at
   * least 1, exactly 1 for equal luminances, and at most 21 for luminances
   * in `[0, 1]`.
   */
  function ContrastRatio(l1: real, l2: real): (ratio: real)
    requires l1 >= 0.0 && l2 >= 0.0
    ensures ratio >= 1.0
    ensures ratio == 1.0 <==> l1 == l2
    ensures l1 <= 1.0 && l2 <= 1.0 ==> ratio <= 21.0
  {
    var hi, lo := Max(l1, l2) + 0.05, Min(l1, l2) + 0.05;
    QuotientBounds(hi, lo);
    hi / lo
  }

  /** A quotient of positive reals compared with 1 and with 21. */
  lemma QuotientBounds(hi: real, lo: real)
    requires 0.05 <= lo <= hi
    ensures hi / lo >= 1.0
    ensures hi / lo == 1.0 <==> hi == lo
    ensures hi <= 1.05 ==> hi / lo <= 21.0
  {
    var q := hi / lo;
    assert q * lo == hi;
    if q < 1.0 {
      PositiveProduct(1.0 - q, lo);
    } else if q > 1.0 {
      PositiveProduct(q - 1.0, lo);
      assert hi > lo;
    }
    if q > 21.0 {
      PositiveProduct(q - 21.0, lo);
      assert hi > 21.0 * lo >= 1.05;
    }
  }

  /** The ratio does not depend on the order of the two luminances. */
  lemma ContrastRatioSymmetric(l1: real, l2: real)
    requires l1 >= 0.0 && l2 >= 0.0
    ensures ContrastRatio(l1, l2) == ContrastRatio(l2, l1)
  {
  }

  /**
   * `contrastWith(otherColor)`: the argument is parsed first, so a bad
   * argument raises the parser's error; otherwise the rounded ratio of the
   * two luminances, a whole number from 1 to 21.
   */
  function ContrastWith(color: Rgb, other: JsValue, pow: real -> real): (res: Result<int>)
    requires color.InRange() && IsUnitPower(pow)
    ensures res.Err? <==> ParseColor(other).Err?
    ensures res.Err? ==> res.error == ParseColor(other).error
    ensures res.Ok? ==> 1 <= res.value <= 21
  {
    match ParseColor(other)
    case Err(e) => Err(e)
    case Ok(c) =>
      var ratio := ContrastRatio(RelativeLuminance(color, pow), RelativeLuminance(c, pow));
      RoundWithin(ratio, 1, 21);
      Ok(Round(ratio))
  }

  /**
   * Comparing two colours gives the same answer from either side, whatever
   * strings they were parsed from: only the parsed colours matter.
   */
  lemma {:induction false} ContrastWithSymmetric(a: Rgb, b: Rgb, sa: string, sb: string, pow: real -> real)
    requires ParseColor(JsString(sa)) == Ok(a) && ParseColor(JsString(sb)) == Ok(b)
    requires IsUnitPower(pow)
    ensures ContrastWith(a, JsString(sb), pow) == ContrastWith(b, JsString(sa), pow)
  {
    ContrastRatioSymmetric(RelativeLuminance(a, pow), RelativeLuminance(b, pow));
  }

  /** In particular, each colour may be given by the other's `toHex` string. */
  lemma {:induction false} ContrastWithHexSymmetric(a: Rgb, b: Rgb, pow: real -> real)
    requires a.InRange() && b.InRange() && IsUnitPower(pow)
    ensures ContrastWith(a, JsString(ToHex(b)), pow) == ContrastWith(b, JsString(ToHex(a)), pow)
  {
    HexRoundTrip(a);
    HexRoundTrip(b);
    ContrastWithSymmetric(a, b, ToHex(a), ToHex(b), pow);
  }

  /** A colour against itself has contrast 1. */
  lemma {:induction false} ContrastWithItself(c: Rgb, pow: real -> real)
    requires c.InRange() && IsUnitPower(pow)
    ensures ContrastWith(c, JsString(ToHex(c)), pow) == Ok(1)
  {
    HexRoundTrip(c);
    var l := RelativeLuminance(c, pow);
    assert ContrastRatio(l, l) == 1.0;
    assert Round(1.0) == 1;
  }

  /** White against black: luminances 1 and 0, contrast 21. */
  lemma {:induction false} BlackOnWhite(pow: real -> real)
    requires IsUnitPower(pow) && pow(1.0) == 1.0
    ensures ContrastWith(Rgb(255, 255, 255), JsString("#000000"), pow) == Ok(21)
  {
    var white, black := Rgb(255, 255, 255), Rgb(0, 0, 0);
    BlackHex();
    HexRoundTrip(black);
    assert RelativeLuminance(white, pow) == 1.0;
    assert RelativeLuminance(black, pow) == 0.0;
  }
}

=== FILE: convert.dfy ===
/**
 * The format converters: `toHex`, `toHsl` and `hslToHex` of index.js.
 *
 * `toHsl` and `hslToHex` compute in IEEE doubles in the library; here they
 * compute in exact rationals (`real`), with `Math.round(x)` as
 * `floor(x + 1/2)`. The properties proved about them are about their case
 * structure and ranges, which the rounding does not disturb.
 */
module ColorConvert {
  import opened ColorValues
  import opened HexNumerals
  import opened ColorParser

  /** A seven-character `#rrggbb` string in lower case. */
  predicate WellFormedHex(hex: string) {
    |hex| == 7 && hex[0] == '#' && AllLowerHex(hex[1..])
  }

  /** `"#" + [r, g, b].map((c) => c.toString(16).padStart(2, "0")).join("")`. */
  function ToHex(c: Rgb): (s: string)
    ensures c.InRange() ==> WellFormedHex(s)
  {
    ChannelsJoined(c);
    "#" + (ChannelHex(c.r) + ChannelHex(c.g) + ChannelHex(c.b))
  }

  lemma ChannelsJoined(c: Rgb)
    ensures c.InRange() ==>
              var s := "#" + (ChannelHex(c.r) + ChannelHex(c.g) + ChannelHex(c.b));
              |s| == 7 && s[0] == '#' && AllLowerHex(s[1..])
  {
    if c.InRange() {
      PairsJoined(ChannelHex(c.r), ChannelHex(c.g), ChannelHex(c.b));
    }
  }

  /** Three two-digit numerals after a `#`: seven characters, split back by position. */
  lemma PairsJoined(r: string, g: string, b: string)
    requires |r| == 2 && |g| == 2 && |b| == 2
    requires AllLowerHex(r) && AllLowerHex(g) && AllLowerHex(b)
    ensures var s := "#" + (r + g + b);
            && |s| == 7 && s[0] == '#' && s[1..] == r + g + b
            && AllLowerHex(s[1..]) && AllHex(s[1..])
            && s[1..][..2] == r && s[1..][2..4] == g && s[1..][4..] == b
  {
    var body := r + g + b;
    var s := "#" + body;
    assert s[1..] == body;
    forall i | 0 <= i < 6 ensures IsLowerHexDigit(body[i]) {
      if i < 2 {
        assert body[i] == r[i];
      } else if i < 4 {
        assert body[i] == g[i - 2];
      } else {
        assert body[i] == b[i - 4];
      }
    }
  }

  /** Printing a colour and reading it back gives the same colour. */
  lemma {:induction false} HexRoundTrip(c: Rgb)
    requires c.InRange()
    ensures HexToRgb(ToHex(c)) == Some(c)
    ensures ParseColor(JsString(ToHex(c))) == Ok(c)
  {
    var r, g, b := ChannelHex(c.r), ChannelHex(c.g), ChannelHex(c.b);
    var body := r + g + b;
    var s := ToHex(c);
    assert s == "#" + body;
    PairsJoined(r, g, b);
    ReadPairs(s, r, g, b);
    assert StartsWith(s, "#");
    ParseHexBranch(s);
  }

  /** Distinct in-range colours print differently. */
  lemma ToHexInjective(c: Rgb, d: Rgb)
    requires c.InRange() && d.InRange()
    ensures ToHex(c) == ToHex(d) <==> c == d
  {
    HexRoundTrip(c);
    HexRoundTrip(d);
  }

  /** Only the gray `{ r: 128, g: 128, b: 128 }` prints as `#808080`. */
  lemma OnlyGrayPrintsAsGray(c: Rgb)
    requires c.InRange() && c != Rgb(128, 128, 128)
    ensures ToHex(c) != "#808080"
  {
    assert "#808080" == ['#', '8', '0', '8', '0', '8', '0'];
    var gray := Rgb(128, 128, 128);
    PrintsAs(gray, '8', '0', '8', '0', '8', '0');
    ToHexInjective(c, gray);
  }

  /** `hexToRgb` on `#` and three two-digit numerals reads the three numerals. */
  lemma ReadPairs(s: string, r: string, g: string, b: string)
    requires |r| == 2 && |g| == 2 && |b| == 2
    requires AllHex(r) && AllHex(g) && AllHex(b)
    requires s == "#" + (r + g + b)
    ensures HexToRgb(s) == Some(Rgb(HexValue(r), HexValue(g), HexValue(b)))
  {
    var body := r + g + b;
    HexBody(body);
    assert body[..2] == r && body[2..4] == g && body[4..] == b;
    assert AllHex(body) by {
      forall i | 0 <= i < 6 ensures IsHexDigit(body[i]) {
        if i < 2 {
          assert body[i] == r[i];
        } else if i < 4 {
          assert body[i] == g[i - 2];
        } else {
          assert body[i] == b[i - 4];
        }
      }
    }
  }

  /** Reading a lower-case `#rrggbb` string and printing it gives the same string. */
  lemma {:induction false} HexStringRoundTrip(d: string)
    requires |d| == 6 && AllLowerHex(d)
    ensures HexToRgb("#" + d).Some? && ToHex(HexToRgb("#" + d).value) == "#" + d
  {
    var r, g, b := d[..2], d[2..4], d[4..];
    assert d == r + g + b;
    assert AllLowerHex(r) && AllLowerHex(g) && AllLowerHex(b);
    ChannelHexOfValue(r);
    ChannelHexOfValue(g);
    ChannelHexOfValue(b);
    ReadPairs("#" + d, r, g, b);
    var c := Rgb(HexValue(r), HexValue(g), HexValue(b));
    assert ToHex(c) == "#" + (r + g + b);
  }

  /** A channel prints as the two lower-case digits whose value it is. */
  lemma ChannelPrints(v: int, hi: char, lo: char)
    requires IsLowerHexDigit(hi) && IsLowerHexDigit(lo)
    requires v == DigitValue(hi) * 16 + DigitValue(lo)
    ensures ChannelHex(v) == [hi, lo]
  {
    var s := [hi, lo];
    assert s[0] == hi && s[1] == lo;
    assert AllLowerHex(s) && AllHex(s);
    HexValueTwo(s);
    assert HexValue(s) == v;
    ChannelHexOfValue(s);
  }

  /** A colour prints as `#` and the two lower-case digits of each channel. */
  lemma PrintsAs(c: Rgb, r1: char, r0: char, g1: char, g0: char, b1: char, b0: char)
    requires IsLowerHexDigit(r1) && IsLowerHexDigit(r0)
    requires IsLowerHexDigit(g1) && IsLowerHexDigit(g0)
    requires IsLowerHexDigit(b1) && IsLowerHexDigit(b0)
    requires c == Rgb(DigitValue(r1) * 16 + DigitValue(r0),
                      DigitValue(g1) * 16 + DigitValue(g0),
                      DigitValue(b1) * 16 + DigitValue(b0))
    ensures ToHex(c) == ['#', r1, r0, g1, g0, b1, b0]
  {
    var digits := [r1, r0] + [g1, g0] + [b1, b0];
    assert "#" + digits == ['#', r1, r0, g1, g0, b1, b0];
    ChannelPrints(c.r, r1, r0);
    ChannelPrints(c.g, g1, g0);
    ChannelPrints(c.b, b1, b0);
    assert ToHex(c) == "#" + digits;
  }

  /** `Math.round`: the nearest integer, halves rounded up. */
  function Round(x: real): (n: int)
    ensures x - 0.5 < n as real <= x + 0.5
  {
    (x + 0.5).Floor
  }

  /** Rounding keeps a value inside integer bounds. */
  lemma RoundWithin(x: real, lo: int, hi: int)
    requires lo as real <= x <= hi as real
    ensures lo <= Round(x) <= hi
  {
  }

  /** `c / 255`. */
  function Unit(c: int): real {
    c as real / 255.0
  }

  function Max3(a: real, b: real, c: real): (m: real)
    ensures m == a || m == b || m == c
    ensures a <= m && b <= m && c <= m
  {
    if a >= b && a >= c then a else if b >= c then b else c
  }

  function Min3(a: real, b: real, c: real): (m: real)
    ensures m == a || m == b || m == c
    ensures m <= a && m <= b && m <= c
  {
    if a <= b && a <= c then a else if b <= c then b else c
  }

  /** The unrounded values `toHsl` computes: hue in turns, saturation and lightness as fractions. */
  datatype ExactHsl = ExactHsl(h: real, s: real, l: real)

  /**
   * The body of `toHsl` before `Math.round`: lightness is the mean of the
   * largest and smallest channel; a gray has hue and saturation 0; otherwise
   * the hue sextant is chosen by which channel is largest (red checked
   * first, then green, then blue).
   */
  function ToExactHsl(c: Rgb): (x: ExactHsl)
    requires c.InRange()
    ensures 0.0 <= x.h < 1.0 && 0.0 <= x.s <= 1.0 && 0.0 <= x.l <= 1.0
    ensures x.s == 0.0 <==> c.IsGray()
    ensures c.IsGray() ==> x.h == 0.0 && x.l == Unit(c.r)
  {
    var rn, gn, bn := Unit(c.r), Unit(c.g), Unit(c.b);
    var mx, mn := Max3(rn, gn, bn), Min3(rn, gn, bn);
    var l := (mx + mn) / 2.0;
    if mx == mn then
      ExactHsl(0.0, 0.0, l)
    else
      var d := mx - mn;
      var s := if l > 0.5 then d / (2.0 - mx - mn) else d / (mx + mn);
      FractionBounds(d, if l > 0.5 then 2.0 - mx - mn else mx + mn);
      var h :=
        if mx == rn then (gn - bn) / d + (if gn < bn then 6.0 else 0.0)
        else if mx == gn then (bn - rn) / d + 2.0
        else (rn - gn) / d + 4.0;
      SextantBounds(rn, gn, bn, mx, mn);
      ExactHsl(h / 6.0, s, l)
  }

  /** `0 < d <= e` makes `d / e` a fraction in `(0, 1]`. */
  lemma FractionBounds(d: real, e: real)
    requires 0.0 < d <= e
    ensures 0.0 < d / e <= 1.0
  {
  }

  /** A difference of two channels is at most the spread `mx - mn`. */
  lemma RatioBounds(a: real, d: real)
    requires d > 0.0 && -d <= a <= d
    ensures -1.0 <= a / d <= 1.0
    ensures a < 0.0 ==> a / d < 0.0
  {
    var q := a / d;
    assert q * d == a;
  }

  /** The sextant formula stays in `[0, 6)`. */
  lemma SextantBounds(rn: real, gn: real, bn: real, mx: real, mn: real)
    requires mx == Max3(rn, gn, bn) && mn == Min3(rn, gn, bn) && mx != mn
    ensures var d := mx - mn;
            var h :=
              if mx == rn then (gn - bn) / d + (if gn < bn then 6.0 else 0.0)
              else if mx == gn then (bn - rn) / d + 2.0
              else (rn - gn) / d + 4.0;
            0.0 <= h < 6.0
  {
    var d := mx - mn;
    if mx == rn {
      RatioBounds(gn - bn, d);
    } else if mx == gn {
      RatioBounds(bn - rn, d);
    } else {
      RatioBounds(rn - gn, d);
    }
  }

  /**
   * `toHsl`: the exact values scaled to degrees and percentages and rounded.
   * Rounding can carry a hue just below 360 up to 360 itself.
   */
  function ToHsl(c: Rgb): (x: Hsl)
    requires c.InRange()
    ensures 0 <= x.h <= 360 && x.InRange()
    ensures c.IsGray() ==> x.h == 0 && x.s == 0
  {
    var e := ToExactHsl(c);
    RoundWithin(e.h * 360.0, 0, 360);
    RoundWithin(e.s * 100.0, 0, 100);
    RoundWithin(e.l * 100.0, 0, 100);
    Hsl(Round(e.h * 360.0), Round(e.s * 100.0), Round(e.l * 100.0))
  }

  /** Rounding is the only reason a hue can reach 360: a red with a trace of blue. */
  lemma HueCanReach360()
    ensures ToHsl(Rgb(255, 0, 1)).h == 360
  {
    var e := ToExactHsl(Rgb(255, 0, 1));
    assert Unit(255) == 1.0 && Unit(0) == 0.0;
    assert e.h == (0.0 - Unit(1)) / 1.0 / 6.0 + 1.0;
  }

  /**
   * JavaScript's `%` on numbers: `a` less a whole multiple of `m`, the
   * remainder taking the sign of the dividend.
   */
  function JsRemReal(a: real, m: real): (r: real)
    requires m > 0.0
    ensures a >= 0.0 ==> 0.0 <= r < m
    ensures a < 0.0 ==> -m < r <= 0.0
    ensures ((a - r) / m).Floor as real == (a - r) / m
  {
    var q := a / m;
    var t := if q >= 0.0 then q.Floor else -((-q).Floor);
    TruncRemainder(a, m, t);
    WholeQuotient(t, m);
    a - (t as real) * m
  }

  /**
   * Truncating `a / m` to `t` leaves a remainder of the dividend's sign,
   * below `m` in size.
   */
  lemma TruncRemainder(a: real, m: real, t: int)
    requires m > 0.0
    requires t == if a / m >= 0.0 then (a / m).Floor else -((-(a / m)).Floor)
    ensures a >= 0.0 ==> 0.0 <= a - (t as real) * m < m
    ensures a < 0.0 ==> -m < a - (t as real) * m <= 0.0
  {
    if a >= 0.0 {
      FloorRemainder(a, m);
    } else {
      var u := -a;
      assert u / m == -(a / m);
      FloorRemainder(u, m);
      var f := (u / m).Floor;
      assert t == -f;
      assert (t as real) * m == -((f as real) * m);
    }
  }

  lemma WholeQuotient(t: int, m: real)
    requires m > 0.0
    ensures ((t as real) * m / m).Floor as real == (t as real) * m / m == t as real
  {
  }

  lemma FloorRemainder(a: real, m: real)
    requires m > 0.0
    ensures a >= 0.0 ==> 0.0 <= a - ((a / m).Floor as real) * m < m
  {
    var q := a / m;
    var t := q.Floor as real;
    assert q * m == a;
    var f := q - t;
    assert 0.0 <= f < 1.0;
    ScaledFraction(f, m);
    assert f * m == q * m - t * m;
    PositiveProduct(1.0 - f, m);
    assert (1.0 - f) * m == m - f * m;
    assert f * m < m;
    assert a - t * m == f * m;
    assert a - t * m < m;
  }

  lemma PositiveProduct(x: real, y: real)
    requires x > 0.0 && y > 0.0
    ensures x * y > 0.0
  {
  }

  lemma MulRight(x: real, y: real, m: real)
    requires x <= y && m >= 0.0
    ensures x * m <= y * m
  {
    assert (y - x) * m >= 0.0;
  }

  function Min(a: real, b: real): real {
    if a <= b then a else b
  }

  function Max(a: real, b: real): real {
    if a >= b then a else b
  }

  /**
   * The inner `f(n)` of `hslToHex`: channel `n` (0 red, 8 green, 4 blue)
   * of the colour with hue `h` degrees and saturation and lightness `s`,
   * `l` percent.
   */
  function HslChannel(n: int, x: Hsl): (v: int)
    requires n == 0 || n == 4 || n == 8
    ensures x.InRange() ==> 0 <= v <= 255
    ensures x.s == 0 ==> v == GrayLevel(x.l)
  {
    Level(JsRemReal(n as real + x.h as real / 30.0, 12.0), x.s, x.l)
  }

  /**
   * The channel level at position `k` of the twelve-step hue wheel, for
   * saturation `sat` and lightness `lit` in percent.
   */
  function Level(k: real, sat: int, lit: int): (v: int)
    ensures 0 <= sat <= 100 && 0 <= lit <= 100 ==> 0 <= v <= 255
    ensures sat == 0 ==> v == GrayLevel(lit)
  {
    var s := sat as real / 100.0;
    var l := lit as real / 100.0;
    var a := Max(-1.0, Min(Min(k - 3.0, 9.0 - k), 1.0));
    ChannelLevelBounds(s, l, a);
    Round((l - s * Min(l, 1.0 - l) * a) * 255.0)
  }

  /** The channel value of a gray of lightness `l` percent. */
  function GrayLevel(l: int): (v: int)
    ensures 0 <= l <= 100 ==> 0 <= v <= 255
    ensures l == 0 ==> v == 0
    ensures l == 100 ==> v == 255
  {
    var v := Round(l as real / 100.0 * 255.0);
    assert 0 <= l <= 100 ==> 0 <= v <= 255 by {
      if 0 <= l <= 100 {
        RoundWithin(l as real / 100.0 * 255.0, 0, 255);
      }
    }
    v
  }

  /** With saturation and lightness fractions, a channel level is a fraction too. */
  lemma ChannelLevelBounds(s: real, l: real, a: real)
    requires -1.0 <= a <= 1.0
    ensures 0.0 <= s <= 1.0 && 0.0 <= l <= 1.0 ==>
              var v := (l - s * Min(l, 1.0 - l) * a) * 255.0;
              0.0 <= v <= 255.0
  {
    if 0.0 <= s <= 1.0 && 0.0 <= l <= 1.0 {
      var m := Min(l, 1.0 - l);
      assert 0.0 <= m <= l && m <= 1.0 - l;
      Excursion(s, m, a);
      var x := s * m * a;
      assert -m <= x <= m;
      assert 0.0 <= l - m <= l - x <= l + m <= 1.0;
      MulRight(0.0, l - x, 255.0);
      MulRight(l - x, 1.0, 255.0);
    }
  }

  /** The term `s * min(l, 1 - l) * a` moves the level by at most `min(l, 1 - l)`. */
  lemma Excursion(s: real, m: real, a: real)
    requires 0.0 <= s <= 1.0 && m >= 0.0 && -1.0 <= a <= 1.0
    ensures -m <= s * m * a <= m
  {
    ScaledFraction(s, m);
    SignedFraction(s * m, a);
  }

  lemma ScaledFraction(s: real, m: real)
    requires 0.0 <= s <= 1.0 && m >= 0.0
    ensures 0.0 <= s * m <= m
  {
    MulRight(0.0, s, m);
    MulRight(s, 1.0, m);
  }

  lemma SignedFraction(p: real, a: real)
    requires p >= 0.0 && -1.0 <= a <= 1.0
    ensures -p <= p * a <= p
  {
    MulRight(-1.0, a, p);
    MulRight(a, 1.0, p);
  }

  /** `hslToHex`: the three channels `f(0)`, `f(8)`, `f(4)`, printed as `toHex` prints. */
  function HslToHex(x: Hsl): (hex: string)
    ensures x.InRange() ==> WellFormedHex(hex)
  {
    ToHex(HslToRgb(x))
  }

  /** The channels `hslToHex` prints. */
  function HslToRgb(x: Hsl): (c: Rgb)
    ensures x.InRange() ==> c.InRange()
    ensures x.s == 0 ==> c == Gray(GrayLevel(x.l))
  {
    Rgb(HslChannel(0, x), HslChannel(8, x), HslChannel(4, x))
  }

  /** Lightness 100 is white whatever the hue and saturation. */
  lemma FullLightness(x: Hsl)
    requires x.l == 100
    ensures HslToRgb(x) == Rgb(255, 255, 255)
  {
    FlatChannel(0, x, 1.0);
    FlatChannel(8, x, 1.0);
    FlatChannel(4, x, 1.0);
  }

  /** Lightness 0 is black whatever the hue and saturation. */
  lemma ZeroLightness(x: Hsl)
    requires x.l == 0
    ensures HslToRgb(x) == Rgb(0, 0, 0)
  {
    FlatChannel(0, x, 0.0);
    FlatChannel(8, x, 0.0);
    FlatChannel(4, x, 0.0);
  }

  /** At lightness 0 or 100, `min(l, 1 - l)` is 0 and the channel is `l * 255`. */
  lemma FlatChannel(n: int, x: Hsl, l: real)
    requires n == 0 || n == 4 || n == 8
    requires l == x.l as real / 100.0 && (l == 0.0 || l == 1.0)
    ensures HslChannel(n, x) == Round(l * 255.0)
  {
    assert Min(l, 1.0 - l) == 0.0;
    var k := JsRemReal(n as real + x.h as real / 30.0, 12.0);
    assert HslChannel(n, x) == Level(k, x.s, x.l);
  }

  /** Without saturation the hue does not matter. */
  lemma UnsaturatedIgnoresHue(x: Hsl, h: int)
    requires x.s == 0
    ensures HslToRgb(x.(h := h)) == HslToRgb(x)
  {
  }

  /** Hues a full turn apart give the same channels. */
  lemma {:induction false} HuePeriodic(x: Hsl)
    requires x.h >= 0
    ensures HslToRgb(x.(h := x.h + 360)) == HslToRgb(x)
  {
    ChannelPeriodic(0, x);
    ChannelPeriodic(8, x);
    ChannelPeriodic(4, x);
  }

  lemma ChannelPeriodic(n: int, x: Hsl)
    requires n == 0 || n == 4 || n == 8
    requires x.h >= 0
    ensures HslChannel(n, x.(h := x.h + 360)) == HslChannel(n, x)
  {
    var a := n as real + x.h as real / 30.0;
    var y := x.(h := x.h + 360);
    assert n as real + y.h as real / 30.0 == a + 12.0;
    RemainderPeriodic(a);
    assert HslChannel(n, y) == Level(JsRemReal(a + 12.0, 12.0), x.s, x.l);
  }

  /** Adding the modulus to a non-negative dividend leaves the remainder alone. */
  lemma RemainderPeriodic(a: real)
    requires a >= 0.0
    ensures JsRemReal(a + 12.0, 12.0) == JsRemReal(a, 12.0)
  {
    var q := a / 12.0;
    assert (a + 12.0) / 12.0 == q + 1.0;
    assert (q + 1.0).Floor == q.Floor + 1;
  }

  /** The hue `toHsl` rounds up to 360 prints as hue 0. */
  lemma Hue360IsHue0(s: int, l: int)
    ensures HslToHex(Hsl(360, s, l)) == HslToHex(Hsl(0, s, l))
  {
    HuePeriodic(Hsl(0, s, l));
  }

  lemma WhiteHex()
    ensures ToHex(Rgb(255, 255, 255)) == "#ffffff"
  {
    HexValueTwo("ff");
    ChannelHexOfValue("ff");
  }

  lemma BlackHex()
    ensures ToHex(Rgb(0, 0, 0)) == "#000000"
  {
    HexValueTwo("00");
    ChannelHexOfValue("00");
  }

  /** The worked example: `#ff5733` is hue 11, saturation 100, lightness 60. */
  lemma ToHslExample()
    ensures ToHsl(Rgb(255, 87, 51)) == Hsl(11, 100, 60)
  {
    var e := ToExactHsl(Rgb(255, 87, 51));
    assert Unit(255) == 1.0 && Unit(51) == 0.2;
    assert e.l == 0.6;
    assert e.s == 1.0;
    assert e.h == (Unit(87) - 0.2) / 0.8 / 6.0;
  }

  /** The worked example: hue 11, saturation 100, lightness 60 is red 255, green 88, blue 51. */
  lemma HslToRgbExample()
    ensures HslToRgb(Hsl(11, 100, 60)) == Rgb(255, 88, 51)
  {
    var x := Hsl(11, 100, 60);
    assert HslChannel(0, x) == 255 by {
      assert JsRemReal(11.0 / 30.0, 12.0) == 11.0 / 30.0;
    }
    assert HslChannel(8, x) == 88 by {
      assert JsRemReal(8.0 + 11.0 / 30.0, 12.0) == 8.0 + 11.0 / 30.0;
    }
    assert HslChannel(4, x) == 51 by {
      assert JsRemReal(4.0 + 11.0 / 30.0, 12.0) == 4.0 + 11.0 / 30.0;
    }
  }

  /** `toHex()` of `#ff5733` gives the string back. */
  lemma ToHexExample()
    ensures ToHex(Rgb(255, 87, 51)) == "#ff5733"
  {
    PrintsAs(Rgb(255, 87, 51), 'f', 'f', '5', '7', '3', '3');
  }

  /** Hue 11, saturation 100, lightness 60 prints as `#ff5833`. */
  lemma HslHex()
    ensures HslToHex(Hsl(11, 100, 60)) == "#ff5833"
  {
    HslToRgbExample();
    PrintsAs(Rgb(255, 88, 51), 'f', 'f', '5', '8', '3', '3');
  }

  /** `hslToHex(h, s, l)` of the HSL of `#ff5733` is `#ff5833`: green rounds up by one. */
  lemma HslToHexExample(c: Rgb)
    requires c == Rgb(255, 87, 51)
    ensures HslToHex(ToHsl(c)) == "#ff5833"
  {
    ToHslExample();
    HslHex();
  }
}

=== FILE: decimal.dfy ===
/**
 * Decimal digit runs: what `s.match(/\d+/g)` finds in a string (every maximal
 * run of ASCII digits, left to right) and what `parseInt` makes of one run.
 */
module DigitRuns {

  predicate IsDigit(c: char) {
    '0' <= c <= '9'
  }

  predicate AllDigits(s: string) {
    forall i :: 0 <= i < |s| ==> IsDigit(s[i])
  }

  predicate NoDigits(s: string) {
    forall i :: 0 <= i < |s| ==> !IsDigit(s[i])
  }

  /** `10^k`. */
  function Pow10(k: nat): (p: nat)
    ensures p >= 1
  {
    if k == 0 then 1 else 10 * Pow10(k - 1)
  }

  /**
   * `parseInt(s)` on a run of decimal digits, read exactly: a numeral of `k`
   * digits is below `10^k`, and one with a non-zero first digit is at least
   * `10^(k-1)`.
   */
  function DecimalValue(s: string): (n: nat)
    requires AllDigits(s)
    ensures n < Pow10(|s|)
    ensures s != [] && s[0] != '0' ==> n >= Pow10(|s| - 1)
  {
    if s == [] then 0 else DecimalValue(s[..|s| - 1]) * 10 + (s[|s| - 1] as int - '0' as int)
  }

  /** The length of the longest all-digit prefix of `s`. */
  function LeadingDigits(s: string): (n: nat)
    ensures n <= |s| && AllDigits(s[..n])
    ensures n < |s| ==> !IsDigit(s[n])
  {
    if s == [] || !IsDigit(s[0]) then 0
    else
      var k := LeadingDigits(s[1..]);
      assert s[..k + 1] == [s[0]] + s[1..][..k];
      k + 1
  }

  /** The digits of `s` in order, everything else dropped. */
  function DigitsOf(s: string): string {
    if s == [] then [] else (if IsDigit(s[0]) then [s[0]] else []) + DigitsOf(s[1..])
  }

  function Concat(runs: seq<string>): string {
    if runs == [] then [] else runs[0] + Concat(runs[1..])
  }

  lemma {:induction false} DigitsOfDigitPrefix(p: string, q: string)
    requires AllDigits(p)
    ensures DigitsOf(p + q) == p + DigitsOf(q)
  {
    if p != [] {
      assert (p + q)[1..] == p[1..] + q;
      DigitsOfDigitPrefix(p[1..], q);
      assert p == [p[0]] + p[1..];
    } else {
      assert p + q == q;
    }
  }

  /**
   * `s.match(/\d+/g)`, with "no match" as the empty sequence: each run is a
   * non-empty string of digits, and together they are exactly the digits of
   * `s`, in order.
   */
  function Runs(s: string): (runs: seq<string>)
    ensures forall i :: 0 <= i < |runs| ==> runs[i] != [] && AllDigits(runs[i])
    ensures Concat(runs) == DigitsOf(s)
    decreases |s|
  {
    if s == [] then []
    else if !IsDigit(s[0]) then Runs(s[1..])
    else
      var n := LeadingDigits(s);
      var rest := Runs(s[n..]);
      assert s == s[..n] + s[n..];
      DigitsOfDigitPrefix(s[..n], s[n..]);
      assert ([s[..n]] + rest)[1..] == rest;
      [s[..n]] + rest
  }

  /** Characters that are not digits never start or extend a run. */
  lemma {:induction false} RunsSkipNonDigits(p: string, s: string)
    requires NoDigits(p)
    ensures Runs(p + s) == Runs(s)
  {
    if p != [] {
      assert (p + s)[1..] == p[1..] + s;
      RunsSkipNonDigits(p[1..], s);
    } else {
      assert p + s == s;
    }
  }

  /** A run of digits ends at the first non-digit that follows it. */
  lemma {:induction false} RunsSplitAtNonDigit(d: string, s: string)
    requires d != [] && AllDigits(d)
    requires s == [] || !IsDigit(s[0])
    ensures Runs(d + s) == [d] + Runs(s)
  {
    var t := d + s;
    LeadingDigitsOfRun(d, s);
    assert t[..|d|] == d && t[|d|..] == s;
  }

  /**
   * A non-digit placed at the start or right after another non-digit neither
   * starts, ends nor splits a run, so the runs stay the same.
   */
  lemma {:induction false} RunsInsertNonDigit(p: string, c: char, q: string)
    requires !IsDigit(c)
    requires p == [] || !IsDigit(p[|p| - 1])
    ensures Runs(p + [c] + q) == Runs(p + q)
    decreases |p|
  {
    if p == [] {
      assert p + [c] + q == [c] + q && ([c] + q)[1..] == q;
      assert p + q == q;
    } else if !IsDigit(p[0]) {
      assert (p + [c] + q)[1..] == p[1..] + [c] + q;
      assert (p + q)[1..] == p[1..] + q;
      RunsInsertNonDigit(p[1..], c, q);
    } else {
      var n := LeadingDigits(p);
      var d, r := p[..n], p[n..];
      assert n < |p|;
      assert p == d + r;
      assert p + [c] + q == d + (r + [c] + q);
      assert p + q == d + (r + q);
      RunsSplitAtNonDigit(d, r + [c] + q);
      RunsSplitAtNonDigit(d, r + q);
      RunsInsertNonDigit(r, c, q);
    }
  }

  lemma {:induction false} LeadingDigitsOfRun(d: string, s: string)
    requires AllDigits(d)
    requires s == [] || !IsDigit(s[0])
    ensures LeadingDigits(d + s) == |d|
  {
    if d == [] {
      assert d + s == s;
    } else {
      assert (d + s)[1..] == d[1..] + s;
      LeadingDigitsOfRun(d[1..], s);
    }
  }

  /** `parseInt` ignores leading zeros. */
  lemma {:induction false} DecimalValueLeadingZero(s: string)
    requires AllDigits(s)
    ensures AllDigits("0" + s) && DecimalValue("0" + s) == DecimalValue(s)
  {
    var z := "0" + s;
    if s != [] {
      assert z[..|z| - 1] == "0" + s[..|s| - 1];
      DecimalValueLeadingZero(s[..|s| - 1]);
    } else {
      assert z[..0] == [];
    }
  }
}

=== FILE: harmony.dfy ===
/**
 * The colour-harmony rules `getComplementary` and `getAnalogous`: rotate the
 * hue of the colour's integer HSL by half a turn, or by 30 degrees either
 * way, and print the rotated colours with `hslToHex`.
 */
module ColorHarmony {
  import opened ColorValues
  import opened ColorConvert

  /**
   * JavaScript's `h % 360` on integers: the quotient is truncated toward
   * zero, so the remainder takes the sign of the dividend.
   */
  function JsRem360(a: int): (r: int)
    ensures -360 < r < 360
    ensures (r - a) % 360 == 0
    ensures (a >= 0 ==> r >= 0) && (a <= 0 ==> r <= 0)
  {
    if a >= 0 then a % 360 else -((-a) % 360)
  }

  /** Two hues in `[0, 360)` that agree modulo 360 are the same hue. */
  lemma SameHue(a: int, b: int)
    requires 0 <= a < 360 && 0 <= b < 360 && (a - b) % 360 == 0
    ensures a == b
  {
  }

  /** `h = (h + 180) % 360`: the hue half a turn away. */
  function Complementary(x: Hsl): (y: Hsl)
    ensures y.s == x.s && y.l == x.l
    ensures x.h >= -180 ==> 0 <= y.h < 360
    ensures (y.h - x.h - 180) % 360 == 0
  {
    var h := JsRem360(x.h + 180);
    assert h - x.h - 180 == h - (x.h + 180);
    x.(h := h)
  }

  /** Two half turns are a full turn: the hue comes back, reduced modulo 360. */
  lemma {:induction false} ComplementaryTwice(x: Hsl)
    requires x.h >= 0
    ensures Complementary(Complementary(x)) == x.(h := x.h % 360)
  {
    var y := Complementary(x);
    var z := Complementary(y);
    assert (z.h - x.h - 360) % 360 == 0 by {
      Congruent(z.h - y.h - 180, y.h - x.h - 180);
    }
    SameHue(z.h, x.h % 360);
  }

  /** The sum of two multiples of 360 is one. */
  lemma Congruent(p: int, q: int)
    requires p % 360 == 0 && q % 360 == 0
    ensures (p + q) % 360 == 0
  {
    var i, j := p / 360, q / 360;
    assert p == 360 * i && q == 360 * j;
    assert p + q == 360 * (i + j);
  }

  /**
   * For a hue `toHsl` can return, complementing twice prints the colour
   * `hslToHex` prints for the original hue (360 included).
   */
  lemma {:induction false} ComplementaryTwicePrints(x: Hsl)
    requires 0 <= x.h <= 360
    ensures HslToHex(Complementary(Complementary(x))) == HslToHex(x)
  {
    ComplementaryTwice(x);
    if x.h == 360 {
      assert x.(h := x.h % 360) == Hsl(0, x.s, x.l);
      assert x == Hsl(360, x.s, x.l);
      Hue360IsHue0(x.s, x.l);
    } else {
      assert x.(h := x.h % 360) == x;
    }
  }

  /**
   * `[(h + 30) % 360, h, (h - 30 + 360) % 360]`: the colour flanked by its
   * neighbours 30 degrees ahead and 30 degrees behind, in that order.
   */
  function Analogous(x: Hsl): (hs: seq<Hsl>)
    ensures |hs| == 3 && hs[1] == x
    ensures hs[0] == x.(h := hs[0].h) && hs[2] == x.(h := hs[2].h)
    ensures x.h >= -30 ==> 0 <= hs[0].h < 360 && 0 <= hs[2].h < 360
    ensures (hs[0].h - x.h - 30) % 360 == 0 && (hs[2].h - x.h + 30) % 360 == 0
  {
    var ahead, behind := JsRem360(x.h + 30), JsRem360(x.h - 30 + 360);
    assert ahead - x.h - 30 == ahead - (x.h + 30);
    assert (behind - x.h + 30) % 360 == 0 by {
      Congruent(behind - (x.h - 30 + 360), 360);
      assert behind - x.h + 30 == behind - (x.h - 30 + 360) + 360;
    }
    [x.(h := ahead), x, x.(h := behind)]
  }

  /**
   * For every hue `toHsl` can return, hue 360 included, stepping ahead then
   * behind, or behind then ahead, prints as the colour itself does.
   */
  lemma {:induction false} AnalogousNeighboursPrint(x: Hsl)
    requires 0 <= x.h <= 360
    ensures HslToHex(Analogous(Analogous(x)[0])[2]) == HslToHex(x)
    ensures HslToHex(Analogous(Analogous(x)[2])[0]) == HslToHex(x)
  {
    if x.h < 360 {
      AnalogousNeighbours(x);
    } else {
      assert Analogous(Analogous(x)[0])[2] == Hsl(0, x.s, x.l);
      assert Analogous(Analogous(x)[2])[0] == Hsl(0, x.s, x.l);
      Hue360IsHue0(x.s, x.l);
    }
  }

  /** Stepping ahead then behind, or behind then ahead, comes back to the hue. */
  lemma {:induction false} AnalogousNeighbours(x: Hsl)
    requires 0 <= x.h < 360
    ensures Analogous(Analogous(x)[0])[2] == x
    ensures Analogous(Analogous(x)[2])[0] == x
  {
    var ahead, behind := Analogous(x)[0], Analogous(x)[2];
    var back, forth := Analogous(ahead)[2], Analogous(behind)[0];
    assert (back.h - x.h) % 360 == 0 by {
      Congruent(back.h - ahead.h + 30, ahead.h - x.h - 30);
    }
    SameHue(back.h, x.h);
    assert (forth.h - x.h) % 360 == 0 by {
      Congruent(forth.h - behind.h - 30, behind.h - x.h + 30);
    }
    SameHue(forth.h, x.h);
  }

  /**
   * `getComplementary()`. A gray has no hue to turn, so it prints as its own
   * HSL does; that can differ from its `toHex`, because its lightness was
   * rounded to a whole percent.
   */
  function GetComplementary(c: Rgb): (hex: string)
    requires c.InRange()
    ensures WellFormedHex(hex)
    ensures c.IsGray() ==> hex == HslToHex(ToHsl(c))
  {
    var x := ToHsl(c);
    ComplementaryPrints(x);
    HslToHex(Complementary(x))
  }

  /** The complement of an in-range HSL prints as a colour, and as the HSL itself does without saturation. */
  lemma ComplementaryPrints(x: Hsl)
    requires x.InRange()
    ensures WellFormedHex(HslToHex(Complementary(x)))
    ensures x.s == 0 ==> HslToHex(Complementary(x)) == HslToHex(x)
  {
    var y := Complementary(x);
    assert y.InRange();
    if x.s == 0 {
      UnsaturatedIgnoresHue(x, y.h);
    }
  }

  /**
   * `getAnalogous()`: three colours; the middle one is what `hslToHex`
   * prints for the colour's own HSL, and for a gray all three are that.
   */
  function GetAnalogous(c: Rgb): (hexes: seq<string>)
    requires c.InRange()
    ensures |hexes| == 3
    ensures WellFormedHex(hexes[0]) && WellFormedHex(hexes[1]) && WellFormedHex(hexes[2])
    ensures hexes[1] == HslToHex(ToHsl(c))
    ensures c.IsGray() ==> hexes[0] == hexes[1] == hexes[2]
  {
    var x := ToHsl(c);
    AnalogousPrints(x);
    var hs := Analogous(x);
    [HslToHex(hs[0]), HslToHex(hs[1]), HslToHex(hs[2])]
  }

  /**
   * The three analogous colours of an in-range HSL all print as colours, and
   * without saturation the neighbours print as the HSL itself does.
   */
  lemma AnalogousPrints(x: Hsl)
    requires x.InRange()
    ensures var hs := Analogous(x);
            && WellFormedHex(HslToHex(hs[0])) && WellFormedHex(HslToHex(hs[2]))
            && (x.s == 0 ==> HslToHex(hs[0]) == HslToHex(x) && HslToHex(hs[2]) == HslToHex(x))
  {
    var hs := Analogous(x);
    assert hs[0].InRange() && hs[2].InRange();
    if x.s == 0 {
      UnsaturatedIgnoresHue(x, hs[0].h);
      UnsaturatedIgnoresHue(x, hs[2].h);
    }
  }

  /** The complement of hue 11 is hue 191, the channels of `#33daff`. */
  lemma ComplementaryChannels()
    ensures Complementary(Hsl(11, 100, 60)) == Hsl(191, 100, 60)
    ensures HslToRgb(Hsl(191, 100, 60)) == Rgb(51, 218, 255)
  {
    var x := Hsl(191, 100, 60);
    assert HslChannel(0, x) == 51 by {
      assert JsRemReal(191.0 / 30.0, 12.0) == 191.0 / 30.0;
    }
    assert HslChannel(8, x) == 218 by {
      assert JsRemReal(8.0 + 191.0 / 30.0, 12.0) == 8.0 + 191.0 / 30.0 - 12.0;
    }
    assert HslChannel(4, x) == 255 by {
      assert JsRemReal(4.0 + 191.0 / 30.0, 12.0) == 4.0 + 191.0 / 30.0;
    }
  }

  /** The analogous hues of hue 11: 41, 11 and 341. */
  lemma AnalogousHues()
    ensures Analogous(Hsl(11, 100, 60)) == [Hsl(41, 100, 60), Hsl(11, 100, 60), Hsl(341, 100, 60)]
  {
  }

  /** Hue 41 is the channels of `#ffbe33`. */
  lemma AheadChannels()
    ensures HslToRgb(Hsl(41, 100, 60)) == Rgb(255, 190, 51)
  {
    var x := Hsl(41, 100, 60);
    assert HslChannel(0, x) == 255 by {
      assert JsRemReal(41.0 / 30.0, 12.0) == 41.0 / 30.0;
    }
    assert HslChannel(8, x) == 190 by {
      assert JsRemReal(8.0 + 41.0 / 30.0, 12.0) == 8.0 + 41.0 / 30.0;
    }
    assert HslChannel(4, x) == 51 by {
      assert JsRemReal(4.0 + 41.0 / 30.0, 12.0) == 4.0 + 41.0 / 30.0;
    }
  }

  /** Hue 341 is the channels of `#ff3374`. */
  lemma BehindChannels()
    ensures HslToRgb(Hsl(341, 100, 60)) == Rgb(255, 51, 116)
  {
    var x := Hsl(341, 100, 60);
    assert HslChannel(0, x) == 255 by {
      assert JsRemReal(341.0 / 30.0, 12.0) == 341.0 / 30.0;
    }
    assert HslChannel(8, x) == 51 by {
      assert JsRemReal(8.0 + 341.0 / 30.0, 12.0) == 8.0 + 341.0 / 30.0 - 12.0;
    }
    assert HslChannel(4, x) == 116 by {
      assert JsRemReal(4.0 + 341.0 / 30.0, 12.0) == 4.0 + 341.0 / 30.0 - 12.0;
    }
  }

  /** The complement of hue 11 at saturation 100, lightness 60 prints `#33daff`. */
  lemma ComplementaryHex()
    ensures HslToHex(Complementary(Hsl(11, 100, 60))) == "#33daff"
  {
    ComplementaryChannels();
    PrintsAs(Rgb(51, 218, 255), '3', '3', 'd', 'a', 'f', 'f');
  }

  /** `getComplementary()` on `#ff5733` is `#33daff`. */
  lemma ComplementaryExample(c: Rgb)
    requires c == Rgb(255, 87, 51)
    ensures GetComplementary(c) == "#33daff"
  {
    ToHslExample();
    ComplementaryHex();
  }

  /** `getAnalogous()` on `#ff5733` is `["#ffbe33", "#ff5833", "#ff3374"]`. */
  lemma AnalogousExample(c: Rgb)
    requires c == Rgb(255, 87, 51)
    ensures GetAnalogous(c) == ["#ffbe33", "#ff5833", "#ff3374"]
  {
    ToHslExample();
    AnalogousHues();
    AheadHex();
    HslHex();
    BehindHex();
  }

  /** Hue 41 at the saturation and lightness of `#ff5733` prints as `#ffbe33`. */
  lemma AheadHex()
    ensures HslToHex(Hsl(41, 100, 60)) == "#ffbe33"
  {
    PrintsAs(Rgb(255, 190, 51), 'f', 'f', 'b', 'e', '3', '3');
    AheadChannels();
  }

  /** Hue 341 at the saturation and lightness of `#ff5733` prints as `#ff3374`. */
  lemma BehindHex()
    ensures HslToHex(Hsl(341, 100, 60)) == "#ff3374"
  {
    PrintsAs(Rgb(255, 51, 116), 'f', 'f', '3', '3', '7', '4');
    BehindChannels();
  }
}

=== FILE: hex.dfy ===
/**
 * Base-16 numerals as JavaScript reads and writes them: `parseInt(s, 16)` on
 * a string of hex digits, `n.toString(16)` and `padStart(2, "0")`.
 */
module HexNumerals {

  predicate IsHexDigit(c: char) {
    '0' <= c <= '9' || 'a' <= c <= 'f' || 'A' <= c <= 'F'
  }

  /** The digits `toString(16)` emits: never upper case. */
  predicate IsLowerHexDigit(c: char) {
    '0' <= c <= '9' || 'a' <= c <= 'f'
  }

  /** The regular expression `[0-9a-fA-F]*`, anchored at both ends. */
  predicate AllHex(s: string) {
    forall i :: 0 <= i < |s| ==> IsHexDigit(s[i])
  }

  predicate AllLowerHex(s: string) {
    forall i :: 0 <= i < |s| ==> IsLowerHexDigit(s[i])
  }

  function DigitValue(c: char): (v: nat)
    requires IsHexDigit(c)
    ensures v < 16
    ensures IsLowerHexDigit(c) ==> LowerDigit(v) == c
  {
    if '0' <= c <= '9' then c as int - '0' as int
    else if 'a' <= c <= 'f' then c as int - 'a' as int + 10
    else c as int - 'A' as int + 10
  }

  /** The lower-case digit for a value below 16. */
  function LowerDigit(v: nat): (c: char)
    requires v < 16
    ensures IsLowerHexDigit(c) && IsHexDigit(c)
  {
    if v < 10 then ('0' as int + v) as char else ('a' as int + v - 10) as char
  }

  lemma LowerDigitValue(v: nat)
    requires v < 16
    ensures DigitValue(LowerDigit(v)) == v
  {
  }

  function Pow16(k: nat): (p: nat)
    ensures p >= 1
  {
    if k == 0 then 1 else 16 * Pow16(k - 1)
  }

  /** `parseInt(s, 16)` for a non-empty string of hex digits (0 for the empty one). */
  function HexValue(s: string): (n: nat)
    requires AllHex(s)
    ensures n < Pow16(|s|)
  {
    if s == [] then 0 else HexValue(s[..|s| - 1]) * 16 + DigitValue(s[|s| - 1])
  }

  /** Reading a numeral in two parts: the high part is scaled by the length of the low one. */
  lemma {:induction false} HexValueAppend(a: string, b: string)
    requires AllHex(a) && AllHex(b)
    ensures AllHex(a + b)
    ensures HexValue(a + b) == HexValue(a) * Pow16(|b|) + HexValue(b)
  {
    var ab := a + b;
    if b == [] {
      assert ab == a;
    } else {
      var b' := b[..|b| - 1];
      assert ab[..|ab| - 1] == a + b';
      assert ab[|ab| - 1] == b[|b| - 1];
      HexValueAppend(a, b');
      var x, p := HexValue(a), Pow16(|b'|);
      ScaleBy16(x, p);
    }
  }

  lemma ScaleBy16(x: nat, p: nat)
    ensures x * (16 * p) == (x * p) * 16
  {
  }

  /** A two-digit numeral: high digit times 16 plus low digit. */
  lemma HexValueTwo(s: string)
    requires |s| == 2 && AllHex(s)
    ensures HexValue(s) == DigitValue(s[0]) * 16 + DigitValue(s[1])
  {
    assert s[..1][..0] == [];
  }

  /** `n.toString(16)` for a non-negative integer: shortest lower-case numeral. */
  function Base16(n: nat): (s: string)
    ensures |s| >= 1 && AllLowerHex(s) && AllHex(s)
    ensures HexValue(s) == n
    ensures n < 16 <==> |s| == 1
    ensures n > 0 ==> s[0] != '0'
    ensures |s| > 1 ==> s[0] != '0'
  {
    if n < 16 then
      LowerDigitValue(n);
      [LowerDigit(n)]
    else
      var high := Base16(n / 16);
      var s := high + [LowerDigit(n % 16)];
      LowerDigitValue(n % 16);
      assert s[..|s| - 1] == high;
      assert s[0] == high[0];
      s
  }

  /**
   * `n.toString(16)` for any integer: the numeral of a non-negative `n`, and
   * a minus sign in front of the magnitude's numeral otherwise.
   */
  function JsToString16(n: int): (s: string)
    ensures n >= 0 ==> AllLowerHex(s) && AllHex(s) && HexValue(s) == n
    ensures n < 0 ==> |s| >= 2 && s[0] == '-' && AllLowerHex(s[1..]) && AllHex(s[1..]) && HexValue(s[1..]) == -n
    ensures |s| == 1 <==> 0 <= n < 16
    ensures n >= 0 && |s| > 1 ==> s[0] != '0'
    ensures n < 0 ==> s[1] != '0'
  {
    if n < 0 then
      var m := Base16(-n);
      assert ("-" + m)[1..] == m;
      "-" + m
    else
      Base16(n)
  }

  /** `s.padStart(width, fill)` with a one-character fill. */
  function PadStart(s: string, width: nat, fill: char): (t: string)
    ensures |t| == if |s| < width then width else |s|
    ensures t[|t| - |s|..] == s
    ensures forall i :: 0 <= i < |t| - |s| ==> t[i] == fill
  {
    if |s| >= width then s else seq(width - |s|, _ => fill) + s
  }

  /** One channel as the library prints it: `c.toString(16).padStart(2, "0")`. */
  function ChannelHex(c: int): (s: string)
    ensures 0 <= c <= 255 ==> |s| == 2 && AllLowerHex(s) && AllHex(s) && HexValue(s) == c
  {
    var t := PadStart(JsToString16(c), 2, '0');
    if 0 <= c < 16 then
      var d := Base16(c);
      assert t == ['0'] + d;
      HexValueAppend(['0'], d);
      assert HexValue(['0']) == 0 by { assert ['0'][..0] == []; }
      t
    else
      t
  }

  /** A two-digit numeral names the byte it was printed from. */
  lemma {:induction false} ChannelHexOfValue(s: string)
    requires |s| == 2 && AllLowerHex(s)
    ensures AllHex(s) && ChannelHex(HexValue(s)) == s
  {
    assert AllHex(s);
    var v := HexValue(s);
    HexValueTwo(s);
    var t := ChannelHex(v);
    HexValueTwo(t);
    SameTwoDigits(t, s);
  }

  /** Two lower-case two-digit numerals with the same value are the same string. */
  lemma SameTwoDigits(t: string, s: string)
    requires |s| == 2 && AllLowerHex(s) && AllHex(s)
    requires |t| == 2 && AllLowerHex(t) && AllHex(t)
    requires DigitValue(t[0]) * 16 + DigitValue(t[1]) == DigitValue(s[0]) * 16 + DigitValue(s[1])
    ensures t == s
  {
    var hi, lo := DigitValue(s[0]), DigitValue(s[1]);
    var hi', lo' := DigitValue(t[0]), DigitValue(t[1]);
    assert hi' == hi && lo' == lo;
    assert IsLowerHexDigit(t[0]) && IsLowerHexDigit(s[0]);
    assert IsLowerHexDigit(t[1]) && IsLowerHexDigit(s[1]);
    assert t[0] == LowerDigit(hi') == LowerDigit(hi) == s[0];
    assert t[1] == LowerDigit(lo') == LowerDigit(lo) == s[1];
  }
}

=== FILE: parser.dfy ===
/**
 * The colour parser: `parseColor`, `hexToRgb` and `rgbStringToRgb` of
 * index.js. A thrown `Error` becomes `Err`, the `null` of `hexToRgb` becomes
 * `None`.
 */
module ColorParser {
  import opened ColorValues
  import opened HexNumerals
  import opened DigitRuns

  /** `s.replace(c, "")` with a one-character pattern: only the first occurrence goes. */
  function RemoveFirst(s: string, c: char): (t: string)
    ensures c !in s ==> t == s
    ensures c in s ==> |t| == |s| - 1
    ensures s != [] && s[0] == c ==> t == s[1..]
  {
    if s == [] then []
    else if s[0] == c then s[1..]
    else
      assert c in s[1..] <==> c in s;
      [s[0]] + RemoveFirst(s[1..], c)
  }

  /** The first `c` is the one removed, wherever it stands. */
  lemma {:induction false} RemoveFirstSplices(p: string, c: char, q: string)
    requires c !in p
    ensures RemoveFirst(p + [c] + q, c) == p + q
  {
    var s := p + [c] + q;
    if p == [] {
      assert s[1..] == q;
    } else {
      assert s[1..] == p[1..] + [c] + q;
      RemoveFirstSplices(p[1..], c, q);
      assert p + q == [p[0]] + (p[1..] + q);
    }
  }

  /** `split("").map((c) => c + c).join("")`: every character written twice. */
  function Doubled(t: string): (d: string)
    ensures |d| == 2 * |t|
    ensures forall i :: 0 <= i < |d| ==> d[i] == t[i / 2]
  {
    if t == [] then [] else [t[0], t[0]] + Doubled(t[1..])
  }

  /** The shorthand step of `hexToRgb`: three characters become six. */
  function Expanded(t: string): (e: string)
    ensures |e| == 6 <==> |t| == 6 || |t| == 3
    ensures AllHex(e) <==> AllHex(t)
    ensures |t| != 3 ==> e == t
    ensures |t| == 3 ==> e == Doubled(t)
  {
    if |t| == 3 then
      var d := Doubled(t);
      assert AllHex(t) ==> AllHex(d);
      assert AllHex(d) ==> AllHex(t) by {
        if AllHex(d) {
          forall i | 0 <= i < |t| ensures IsHexDigit(t[i]) {
            assert d[2 * i] == t[i];
          }
        }
      }
      d
    else
      t
  }

  /**
   * `hexToRgb`: drop the first `#`, expand a three-digit shorthand, and split
   * six hex digits into the high, middle and low byte of their value. Any
   * other length, or a character outside `[0-9a-fA-F]`, gives `None`.
   */
  function HexToRgb(s: string): (res: Option<Rgb>)
    ensures res.Some? <==> var t := RemoveFirst(s, '#'); (|t| == 6 || |t| == 3) && AllHex(t)
    ensures res.Some? ==> res.value.InRange()
    ensures res.Some? && |RemoveFirst(s, '#')| == 6 ==>
              var t := RemoveFirst(s, '#');
              res.value == Rgb(HexValue(t[..2]), HexValue(t[2..4]), HexValue(t[4..]))
    ensures res.Some? && |RemoveFirst(s, '#')| == 3 ==>
              var t := RemoveFirst(s, '#');
              res.value == Rgb(17 * DigitValue(t[0]), 17 * DigitValue(t[1]), 17 * DigitValue(t[2]))
  {
    var t := Expanded(RemoveFirst(s, '#'));
    if |t| != 6 || !AllHex(t) then None
    else
      var v := HexValue(t);
      SplitSixDigits(t);
      // (v >> 16) & 255, (v >> 8) & 255 and v & 255, for 0 <= v < 2^24
      ExpandedPairs(RemoveFirst(s, '#'));
      Some(Rgb(v / 0x1_0000 % 0x100, v / 0x100 % 0x100, v % 0x100))
  }

  /** Six hex digits hold three bytes, high pair first. */
  lemma SplitSixDigits(t: string)
    requires |t| == 6 && AllHex(t)
    ensures AllHex(t[..2]) && AllHex(t[2..4]) && AllHex(t[4..])
    ensures var v := HexValue(t);
            && v / 0x1_0000 % 0x100 == HexValue(t[..2])
            && v / 0x100 % 0x100 == HexValue(t[2..4])
            && v % 0x100 == HexValue(t[4..])
  {
    assert t == t[..2] + t[2..];
    assert t[2..] == t[2..4] + t[4..];
    HexValueAppend(t[..2], t[2..]);
    HexValueAppend(t[2..4], t[4..]);
    assert Pow16(2) == 0x100;
    assert Pow16(4) == 0x1_0000;
    var a, b, c := HexValue(t[..2]), HexValue(t[2..4]), HexValue(t[4..]);
    BytesOf(a, b, c);
  }

  lemma BytesOf(a: nat, b: nat, c: nat)
    requires a < 0x100 && b < 0x100 && c < 0x100
    ensures var v := a * 0x1_0000 + (b * 0x100 + c);
            && v / 0x1_0000 % 0x100 == a
            && v / 0x100 % 0x100 == b
            && v % 0x100 == c
  {
  }

  /** The three digit pairs after expansion, for either accepted length. */
  lemma ExpandedPairs(u: string)
    requires (|u| == 6 || |u| == 3) && AllHex(u)
    ensures var t := Expanded(u);
            && AllHex(t[..2]) && AllHex(t[2..4]) && AllHex(t[4..])
            && (|u| == 3 ==>
                  && HexValue(t[..2]) == 17 * DigitValue(u[0])
                  && HexValue(t[2..4]) == 17 * DigitValue(u[1])
                  && HexValue(t[4..]) == 17 * DigitValue(u[2]))
  {
    if |u| == 3 {
      ShorthandPairs(u);
    }
  }

  /** A doubled digit `cc` has the value 17 times that of `c`. */
  lemma ShorthandPairs(t: string)
    requires |t| == 3 && AllHex(t)
    ensures var d := Doubled(t);
            && AllHex(d[..2]) && AllHex(d[2..4]) && AllHex(d[4..])
            && HexValue(d[..2]) == 17 * DigitValue(t[0])
            && HexValue(d[2..4]) == 17 * DigitValue(t[1])
            && HexValue(d[4..]) == 17 * DigitValue(t[2])
  {
    var d := Doubled(t);
    assert d[0] == d[1] == t[0];
    assert d[2] == d[3] == t[1];
    assert d[4] == d[5] == t[2];
    assert AllHex(d);
    HexValueTwo(d[..2]);
    HexValueTwo(d[2..4]);
    HexValueTwo(d[4..]);
  }

  /**
   * `rgbStringToRgb`: the first three digit runs of the string, read as
   * decimal numbers, are the channels; fewer than three runs, or a run above
   * 255, is "Invalid RGB format".
   */
  function RgbStringToRgb(s: string): (res: Result<Rgb>)
    ensures res.Err? ==> res.error == InvalidRgbFormat
    ensures res.Ok? <==> var runs := Runs(s);
              |runs| >= 3 && DecimalValue(runs[0]) <= 255
              && DecimalValue(runs[1]) <= 255 && DecimalValue(runs[2]) <= 255
    ensures res.Ok? ==> res.value.InRange()
    ensures res.Ok? ==> var runs := Runs(s);
              res.value == Rgb(DecimalValue(runs[0]), DecimalValue(runs[1]), DecimalValue(runs[2]))
  {
    var runs := Runs(s);
    if |runs| < 3 then Err(InvalidRgbFormat)
    else
      var r, g, b := DecimalValue(runs[0]), DecimalValue(runs[1]), DecimalValue(runs[2]);
      // A run has no sign, so the lower bounds hold already.
      if r < 0 || r > 255 || g < 0 || g > 255 || b < 0 || b > 255 then Err(InvalidRgbFormat)
      else Ok(Rgb(r, g, b))
  }

  /**
   * `parseColor`: `#...` goes to `hexToRgb`, `rgb...` to `rgbStringToRgb`;
   * a non-string, any other prefix, or a rejected hex string is
   * "Unsupported color format".
   */
  function ParseColor(x: JsValue): (res: Result<Rgb>)
    ensures res.Ok? ==> res.value.InRange()
    ensures x.NonString? ==> res == Err(UnsupportedFormat)
    ensures x.JsString? && !StartsWith(x.s, "#") && !StartsWith(x.s, "rgb") ==> res == Err(UnsupportedFormat)
    ensures x.JsString? && StartsWith(x.s, "#") ==>
              && (res.Ok? <==> HexToRgb(x.s).Some?)
              && (res.Ok? ==> res.value == HexToRgb(x.s).value)
              && (res.Err? ==> res.error == UnsupportedFormat)
    ensures res == Err(InvalidRgbFormat) <==> x.JsString? && StartsWith(x.s, "rgb") && RgbStringToRgb(x.s).Err?
    ensures x.JsString? && StartsWith(x.s, "rgb") ==> res == RgbStringToRgb(x.s)
  {
    match x
    case NonString => Err(UnsupportedFormat)
    case JsString(s) =>
      if StartsWith(s, "#") then
        match HexToRgb(s)
        case None => Err(UnsupportedFormat)
        case Some(c) => Ok(c)
      else if StartsWith(s, "rgb") then RgbStringToRgb(s)
      else Err(UnsupportedFormat)
  }

  /** After the leading `#`, the rest of a string is what `hexToRgb` reads. */
  lemma HexBody(d: string)
    ensures RemoveFirst("#" + d, '#') == d
  {
    var s := "#" + d;
    assert s[0] == '#' && s[1..] == d;
  }

  /**
   * The hexadecimal notation: `#` followed by six hex digits, or by three
   * that stand for six, is accepted; each byte is one pair of digits.
   */
  lemma {:induction false} HexNotation(d: string)
    requires (|d| == 6 || |d| == 3) && AllHex(d)
    ensures ParseColor(JsString("#" + d)).Ok?
    ensures |d| == 6 ==> ParseColor(JsString("#" + d)).value
                         == Rgb(16 * DigitValue(d[0]) + DigitValue(d[1]),
                                16 * DigitValue(d[2]) + DigitValue(d[3]),
                                16 * DigitValue(d[4]) + DigitValue(d[5]))
    ensures |d| == 3 ==> ParseColor(JsString("#" + d)).value
                         == Rgb(17 * DigitValue(d[0]), 17 * DigitValue(d[1]), 17 * DigitValue(d[2]))
  {
    var s := "#" + d;
    HexBody(d);
    assert StartsWith(s, "#");
    ParseHexBranch(s);
    if |d| == 6 {
      assert AllHex(d[..2]) && AllHex(d[2..4]) && AllHex(d[4..]);
      HexValueTwo(d[..2]);
      HexValueTwo(d[2..4]);
      HexValueTwo(d[4..]);
    }
  }

  /** On a `#` string, `parseColor` returns what `hexToRgb` returns. */
  lemma ParseHexBranch(s: string)
    requires StartsWith(s, "#") && HexToRgb(s).Some?
    ensures ParseColor(JsString(s)) == Ok(HexToRgb(s).value)
  {
  }

  /** A `#` string of any other length is rejected, as "Unsupported color format". */
  lemma {:induction false} HexWrongLength(d: string)
    requires |d| != 6 && |d| != 3
    ensures ParseColor(JsString("#" + d)) == Err(UnsupportedFormat)
  {
    HexBody(d);
    assert StartsWith("#" + d, "#");
  }

  /**
   * The functional notation `rgb(R, G, B)` with decimal numerals: the three
   * numerals are the channels when none exceeds 255, and otherwise the
   * string is "Invalid RGB format".
   */
  lemma {:induction false} RgbNotation(d1: string, d2: string, d3: string)
    requires d1 != [] && AllDigits(d1) && d2 != [] && AllDigits(d2) && d3 != [] && AllDigits(d3)
    ensures var s := "rgb(" + d1 + ", " + d2 + ", " + d3 + ")";
            var v1, v2, v3 := DecimalValue(d1), DecimalValue(d2), DecimalValue(d3);
            ParseColor(JsString(s))
            == if v1 <= 255 && v2 <= 255 && v3 <= 255 then Ok(Rgb(v1, v2, v3)) else Err(InvalidRgbFormat)
  {
    var s := "rgb(" + d1 + ", " + d2 + ", " + d3 + ")";
    RunsOfList("rgb(", d1, ", ", d2, ", ", d3, ")");
    assert StartsWith(s, "rgb");
    assert !StartsWith(s, "#");
  }

  /** The runs of `p1 d1 p2 d2 p3 d3 p4` where only the `d`s hold digits. */
  lemma {:induction false} RunsOfList(p1: string, d1: string, p2: string, d2: string, p3: string, d3: string, p4: string)
    requires d1 != [] && AllDigits(d1) && d2 != [] && AllDigits(d2) && d3 != [] && AllDigits(d3)
    requires p2 != [] && p3 != [] && NoDigits(p1) && NoDigits(p2) && NoDigits(p3) && NoDigits(p4)
    ensures Runs(p1 + d1 + p2 + d2 + p3 + d3 + p4) == [d1, d2, d3]
  {
    var e3 := d3 + p4;
    assert Runs(e3) == [d3] by {
      RunsSkipNonDigits(p4, []);
      assert p4 + [] == p4;
      RunsSplitAtNonDigit(d3, p4);
    }
    var e2 := d2 + (p3 + e3);
    assert Runs(e2) == [d2, d3] by {
      RunsSkipNonDigits(p3, e3);
      RunsSplitAtNonDigit(d2, p3 + e3);
    }
    var e1 := d1 + (p2 + e2);
    assert Runs(e1) == [d1, d2, d3] by {
      RunsSkipNonDigits(p2, e2);
      RunsSplitAtNonDigit(d1, p2 + e2);
    }
    assert Runs(p1 + e1) == [d1, d2, d3] by {
      RunsSkipNonDigits(p1, e1);
    }
    Regroup(p1, d1, p2, d2, p3, d3, p4);
  }

  lemma Regroup(p1: string, d1: string, p2: string, d2: string, p3: string, d3: string, p4: string)
    ensures p1 + d1 + p2 + d2 + p3 + d3 + p4 == p1 + (d1 + (p2 + (d2 + (p3 + (d3 + p4)))))
  {
  }

  /**
   * A minus sign is not part of a digit run, so it is dropped rather than
   * rejected: in an `rgb...` string, a minus that does not follow a digit
   * changes nothing, and the `< 0` tests in `rgbStringToRgb` never fire.
   */
  lemma {:induction false} SignIgnored(p: string, q: string)
    requires StartsWith(p, "rgb") && !IsDigit(p[|p| - 1])
    ensures ParseColor(JsString(p + "-" + q)) == ParseColor(JsString(p + q))
  {
    var s, t := p + "-" + q, p + q;
    assert s[..3] == p[..3] && t[..3] == p[..3];
    assert StartsWith(s, "rgb") && StartsWith(t, "rgb");
    RunsInsertNonDigit(p, '-', q);
    assert RgbStringToRgb(s) == RgbStringToRgb(t);
  }

  /** `"#ff5733"` is `{ r: 255, g: 87, b: 51 }`. */
  lemma ParseLongHexExample()
    ensures ParseColor(JsString("#ff5733")) == Ok(Rgb(255, 87, 51))
  {
    var d := "ff5733";
    assert "#" + d == "#ff5733";
    assert d[0] == 'f' && d[1] == 'f' && d[2] == '5' && d[3] == '7' && d[4] == '3' && d[5] == '3';
    HexNotation(d);
  }

  /** `"#f53"` is `{ r: 255, g: 85, b: 51 }`. */
  lemma ParseShortHexExample()
    ensures ParseColor(JsString("#f53")) == Ok(Rgb(255, 85, 51))
  {
    var d := "f53";
    assert "#" + d == "#f53";
    assert d[0] == 'f' && d[1] == '5' && d[2] == '3';
    HexNotation(d);
  }

  /** `"rgb(255, 87, 51)"` is `{ r: 255, g: 87, b: 51 }`. */
  lemma ParseRgbExample()
    ensures ParseColor(JsString("rgb(255, 87, 51)")) == Ok(Rgb(255, 87, 51))
  {
    var d1, d2, d3 := "255", "87", "51";
    assert "rgb(" + d1 + ", " + d2 + ", " + d3 + ")" == "rgb(255, 87, 51)";
    assert DecimalValue(d1) == 255 by { DecimalThree(d1); }
    assert DecimalValue(d2) == 87 by { DecimalTwo(d2); }
    assert DecimalValue(d3) == 51 by { DecimalTwo(d3); }
    RgbNotation(d1, d2, d3);
  }

  /** `"invalidColor"` is "Unsupported color format". */
  lemma ParseUnsupportedExample()
    ensures ParseColor(JsString("invalidColor")) == Err(UnsupportedFormat)
  {
    var s := "invalidColor";
    assert s[0] == 'i';
    assert !StartsWith(s, "#") && !StartsWith(s, "rgb");
    NeitherPrefix(s);
  }

  /** A string that starts with neither `#` nor `rgb` is "Unsupported color format". */
  lemma NeitherPrefix(s: string)
    requires !StartsWith(s, "#") && !StartsWith(s, "rgb")
    ensures ParseColor(JsString(s)) == Err(UnsupportedFormat)
  {
  }

  /** `"#invalid"` is "Unsupported color format": seven characters follow the `#`. */
  lemma ParseInvalidHexExample()
    ensures ParseColor(JsString("#invalid")) == Err(UnsupportedFormat)
  {
    var d := "invalid";
    assert "#" + d == "#invalid";
    HexWrongLength(d);
  }

  /** `"rgb(300, -20, 500)"` is "Invalid RGB format". */
  lemma ParseInvalidRgbExample()
    ensures ParseColor(JsString("rgb(300, -20, 500)")) == Err(InvalidRgbFormat)
  {
    var d1, d2, d3 := "300", "20", "500";
    var p, q := "rgb(" + d1 + ", ", d2 + ", " + d3 + ")";
    assert p + "-" + q == "rgb(300, -20, 500)";
    assert p + q == "rgb(" + d1 + ", " + d2 + ", " + d3 + ")";
    assert StartsWith(p, "rgb") && p[|p| - 1] == ' ';
    assert d1[0] == '3' && d1[1] == '0' && d1[2] == '0';
    assert AllDigits(d1) && AllDigits(d2) && AllDigits(d3);
    DecimalThree(d1);
    SignIgnored(p, q);
    RgbNotation(d1, d2, d3);
  }

  lemma DecimalTwo(s: string)
    requires |s| == 2 && AllDigits(s)
    ensures DecimalValue(s) == (s[0] as int - '0' as int) * 10 + (s[1] as int - '0' as int)
  {
    var h := s[..1];
    assert h[..0] == [] && h[0] == s[0];
    assert DecimalValue(h) == s[0] as int - '0' as int;
  }

  lemma DecimalThree(s: string)
    requires |s| == 3 && AllDigits(s)
    ensures DecimalValue(s) == (s[0] as int - '0' as int) * 100 + (s[1] as int - '0' as int) * 10
                               + (s[2] as int - '0' as int)
  {
    DecimalTwo(s[..2]);
    assert s[..2][..1] == s[..1];
  }
}

=== FILE: tone.dfy ===
/**
 * `lighten`, `darken`, `saturate` and `desaturate`: each takes the colour's
 * integer HSL, moves one percentage by `amount`, clamps it at 100 (upwards)
 * or 0 (downwards), and prints the result with `hslToHex`.
 */
module ColorTone {
  import opened ColorValues
  import opened ColorConvert

  /** The `amount` each operation uses when the caller passes none. */
  const DefaultAmount: int := 20

  /** Some gray printed by `toHex`. */
  ghost predicate PrintsGray(hex: string) {
    exists v :: 0 <= v <= 255 && hex == ToHex(Gray(v))
  }

  /** `l = Math.min(100, l + amount)`: the raised lightness, capped at 100. */
  function Lightened(x: Hsl, amount: int): (y: Hsl)
    ensures y.h == x.h && y.s == x.s
    ensures y.l <= 100 && y.l <= x.l + amount
    ensures y.l == 100 || y.l == x.l + amount
    ensures x.InRange() && amount >= 0 ==> y.InRange()
  {
    x.(l := if x.l + amount < 100 then x.l + amount else 100)
  }

  /** `l = Math.max(0, l - amount)`: the lowered lightness, floored at 0. */
  function Darkened(x: Hsl, amount: int): (y: Hsl)
    ensures y.h == x.h && y.s == x.s
    ensures y.l >= 0 && y.l >= x.l - amount
    ensures y.l == 0 || y.l == x.l - amount
    ensures x.InRange() && amount >= 0 ==> y.InRange()
  {
    x.(l := if x.l - amount > 0 then x.l - amount else 0)
  }

  /** `s = Math.min(100, s + amount)`: the raised saturation, capped at 100. */
  function Saturated(x: Hsl, amount: int): (y: Hsl)
    ensures y.h == x.h && y.l == x.l
    ensures y.s <= 100 && y.s <= x.s + amount
    ensures y.s == 100 || y.s == x.s + amount
    ensures x.InRange() && amount >= 0 ==> y.InRange()
  {
    x.(s := if x.s + amount < 100 then x.s + amount else 100)
  }

  /** `s = Math.max(0, s - amount)`: the lowered saturation, floored at 0. */
  function Desaturated(x: Hsl, amount: int): (y: Hsl)
    ensures y.h == x.h && y.l == x.l
    ensures y.s >= 0 && y.s >= x.s - amount
    ensures y.s == 0 || y.s == x.s - amount
    ensures x.InRange() && amount >= 0 ==> y.InRange()
  {
    x.(s := if x.s - amount > 0 then x.s - amount else 0)
  }

  /** Darkening undoes a lightening that did not hit the cap. */
  lemma LightenThenDarken(x: Hsl, amount: int)
    requires x.InRange() && x.l + amount <= 100
    ensures Darkened(Lightened(x, amount), amount) == x
  {
  }

  /** Lightening undoes a darkening that did not hit the floor. */
  lemma DarkenThenLighten(x: Hsl, amount: int)
    requires x.InRange() && x.l - amount >= 0
    ensures Lightened(Darkened(x, amount), amount) == x
  {
  }

  /** Desaturating undoes a saturation that did not hit the cap. */
  lemma SaturateThenDesaturate(x: Hsl, amount: int)
    requires x.InRange() && x.s + amount <= 100
    ensures Desaturated(Saturated(x, amount), amount) == x
  {
  }

  /** Saturating undoes a desaturation that did not hit the floor. */
  lemma DesaturateThenSaturate(x: Hsl, amount: int)
    requires x.InRange() && x.s - amount >= 0
    ensures Saturated(Desaturated(x, amount), amount) == x
  {
  }

  /** A larger amount never gives a darker (or less saturated) result, and so on. */
  lemma TonesMonotone(x: Hsl, a1: int, a2: int)
    requires a1 <= a2
    ensures Lightened(x, a1).l <= Lightened(x, a2).l
    ensures Darkened(x, a1).l >= Darkened(x, a2).l
    ensures Saturated(x, a1).s <= Saturated(x, a2).s
    ensures Desaturated(x, a1).s >= Desaturated(x, a2).s
  {
  }

  /** Two steps add up, as long as neither is negative. */
  lemma LightenTwice(x: Hsl, a1: int, a2: int)
    requires a1 >= 0 && a2 >= 0
    ensures Lightened(Lightened(x, a1), a2) == Lightened(x, a1 + a2)
    ensures Darkened(Darkened(x, a1), a2) == Darkened(x, a1 + a2)
  {
  }

  /** `hslToHex` of a colour with lightness 100 or 0: white or black. */
  lemma PrintedExtremes(x: Hsl)
    ensures x.l == 100 ==> HslToHex(x) == "#ffffff"
    ensures x.l == 0 ==> HslToHex(x) == "#000000"
  {
    if x.l == 100 {
      FullLightness(x);
      assert HslToHex(x) == ToHex(Rgb(255, 255, 255));
      WhiteHex();
    } else if x.l == 0 {
      ZeroLightness(x);
      assert HslToHex(x) == ToHex(Rgb(0, 0, 0));
      BlackHex();
    }
  }

  /**
   * `lighten(amount)`. With a non-negative amount the result is a colour;
   * once the lightness reaches 100 it is white whatever the hue.
   */
  function Lighten(c: Rgb, amount: int): (hex: string)
    requires c.InRange()
    ensures amount >= 0 ==> WellFormedHex(hex)
    ensures ToHsl(c).l + amount >= 100 ==> hex == "#ffffff"
  {
    var y := Lightened(ToHsl(c), amount);
    PrintedExtremes(y);
    HslToHex(y)
  }

  /** `darken(amount)`: once the lightness reaches 0 the result is black. */
  function Darken(c: Rgb, amount: int): (hex: string)
    requires c.InRange()
    ensures amount >= 0 ==> WellFormedHex(hex)
    ensures ToHsl(c).l <= amount ==> hex == "#000000"
  {
    var y := Darkened(ToHsl(c), amount);
    PrintedExtremes(y);
    HslToHex(y)
  }

  /** `saturate(amount)`: white and black have no hue to saturate. */
  function Saturate(c: Rgb, amount: int): (hex: string)
    requires c.InRange()
    ensures amount >= 0 ==> WellFormedHex(hex)
    ensures ToHsl(c).l == 100 ==> hex == "#ffffff"
    ensures ToHsl(c).l == 0 ==> hex == "#000000"
  {
    var y := Saturated(ToHsl(c), amount);
    PrintedExtremes(y);
    HslToHex(y)
  }

  /**
   * `desaturate(amount)`: once the saturation reaches 0 the result is the
   * gray of the colour's own lightness.
   */
  function Desaturate(c: Rgb, amount: int): (hex: string)
    requires c.InRange()
    ensures amount >= 0 ==> WellFormedHex(hex)
    ensures ToHsl(c).s <= amount ==> hex == ToHex(Gray(GrayLevel(ToHsl(c).l)))
  {
    HslToHex(Desaturated(ToHsl(c), amount))
  }

  /**
   * A gray stays a gray under `lighten`, `darken` and `desaturate`: they
   * never give it a saturation.
   */
  lemma {:induction false} GrayStaysGray(c: Rgb, amount: int)
    requires c.InRange() && c.IsGray() && amount >= 0
    ensures PrintsGray(Lighten(c, amount))
    ensures PrintsGray(Darken(c, amount))
    ensures PrintsGray(Desaturate(c, amount))
  {
    var x := ToHsl(c);
    assert x.s == 0 && x.InRange();
    UnsaturatedPrintsGray(Lightened(x, amount));
    UnsaturatedPrintsGray(Darkened(x, amount));
    UnsaturatedPrintsGray(Desaturated(x, amount));
  }

  lemma UnsaturatedPrintsGray(x: Hsl)
    requires x.s == 0 && x.InRange()
    ensures PrintsGray(HslToHex(x))
  {
    var v := GrayLevel(x.l);
    assert HslToHex(x) == ToHex(Gray(v));
  }

  /** Lightness 80 at the hue and saturation of `#ff5733`: the channels of `#ffac99`. */
  lemma LightenChannels()
    ensures HslToRgb(Lightened(Hsl(11, 100, 60), DefaultAmount)) == Rgb(255, 172, 153)
  {
    var x := Hsl(11, 100, 80);
    assert HslChannel(0, x) == 255 by {
      assert JsRemReal(11.0 / 30.0, 12.0) == 11.0 / 30.0;
    }
    assert HslChannel(8, x) == 172 by {
      assert JsRemReal(8.0 + 11.0 / 30.0, 12.0) == 8.0 + 11.0 / 30.0;
    }
    assert HslChannel(4, x) == 153 by {
      assert JsRemReal(4.0 + 11.0 / 30.0, 12.0) == 4.0 + 11.0 / 30.0;
    }
  }

  /** Lightness 40 at the hue and saturation of `#ff5733`: the channels of `#cc2500`. */
  lemma DarkenChannels()
    ensures HslToRgb(Darkened(Hsl(11, 100, 60), DefaultAmount)) == Rgb(204, 37, 0)
  {
    var x := Hsl(11, 100, 40);
    assert HslChannel(0, x) == 204 by {
      assert JsRemReal(11.0 / 30.0, 12.0) == 11.0 / 30.0;
    }
    assert HslChannel(8, x) == 37 by {
      assert JsRemReal(8.0 + 11.0 / 30.0, 12.0) == 8.0 + 11.0 / 30.0;
    }
    assert HslChannel(4, x) == 0 by {
      assert JsRemReal(4.0 + 11.0 / 30.0, 12.0) == 4.0 + 11.0 / 30.0;
    }
  }

  /** The gray `#808080` is hue 0, saturation 0, lightness 50. */
  lemma GrayToHslExample()
    ensures ToHsl(Rgb(128, 128, 128)) == Hsl(0, 0, 50)
  {
    assert Unit(128) * 100.0 + 0.5 == 12927.5 / 255.0;
  }

  /** Saturation 20 at lightness 50: red 153, green 102, blue 102. */
  lemma SaturateChannels()
    ensures HslToRgb(Saturated(Hsl(0, 0, 50), DefaultAmount)) == Rgb(153, 102, 102)
  {
    var x := Hsl(0, 20, 50);
    assert HslChannel(0, x) == 153 by {
      assert JsRemReal(0.0, 12.0) == 0.0;
    }
    assert HslChannel(8, x) == 102 by {
      assert JsRemReal(8.0, 12.0) == 8.0;
    }
    assert HslChannel(4, x) == 102 by {
      assert JsRemReal(4.0, 12.0) == 4.0;
    }
  }

  /** Saturation 80 at the hue and lightness of `#ff5733`: red 235, green 101, blue 71. */
  lemma DesaturateChannels()
    ensures HslToRgb(Desaturated(Hsl(11, 100, 60), DefaultAmount)) == Rgb(235, 101, 71)
  {
    var x := Hsl(11, 80, 60);
    assert HslChannel(0, x) == 235 by {
      assert JsRemReal(11.0 / 30.0, 12.0) == 11.0 / 30.0;
    }
    assert HslChannel(8, x) == 101 by {
      assert JsRemReal(8.0 + 11.0 / 30.0, 12.0) == 8.0 + 11.0 / 30.0;
    }
    assert HslChannel(4, x) == 71 by {
      assert JsRemReal(4.0 + 11.0 / 30.0, 12.0) == 4.0 + 11.0 / 30.0;
    }
  }

  /** Lightening hue 11, saturation 100, lightness 60 by 20 prints `#ffac99`. */
  lemma LightenHex()
    ensures HslToHex(Lightened(Hsl(11, 100, 60), DefaultAmount)) == "#ffac99"
  {
    LightenChannels();
    PrintsAs(Rgb(255, 172, 153), 'f', 'f', 'a', 'c', '9', '9');
  }

  /** `lighten(20)` on `#ff5733` is `#ffac99`. */
  lemma LightenExample(c: Rgb)
    requires c == Rgb(255, 87, 51)
    ensures Lighten(c, DefaultAmount) == "#ffac99"
  {
    ToHslExample();
    LightenHex();
  }

  /** Darkening hue 11, saturation 100, lightness 60 by 20 prints `#cc2500`. */
  lemma DarkenHex()
    ensures HslToHex(Darkened(Hsl(11, 100, 60), DefaultAmount)) == "#cc2500"
  {
    DarkenChannels();
    PrintsAs(Rgb(204, 37, 0), 'c', 'c', '2', '5', '0', '0');
  }

  /** `darken(20)` on `#ff5733` is `#cc2500`. */
  lemma DarkenExample(c: Rgb)
    requires c == Rgb(255, 87, 51)
    ensures Darken(c, DefaultAmount) == "#cc2500"
  {
    ToHslExample();
    DarkenHex();
  }

  /** Saturating the gray of lightness 50 by 20 prints something other than `#808080`. */
  lemma SaturateHex()
    ensures HslToHex(Saturated(Hsl(0, 0, 50), DefaultAmount)) != "#808080"
  {
    SaturateChannels();
    OnlyGrayPrintsAsGray(Rgb(153, 102, 102));
  }

  /** `saturate(20)` on the gray `#808080` is no longer `#808080`. */
  lemma SaturateExample(c: Rgb)
    requires c == Rgb(128, 128, 128)
    ensures Saturate(c, DefaultAmount) != "#808080"
  {
    GrayToHslExample();
    SaturateHex();
  }

  /** Desaturating hue 11, saturation 100, lightness 60 by 20 prints something other than `#ff5733`. */
  lemma DesaturateHex()
    ensures HslToHex(Desaturated(Hsl(11, 100, 60), DefaultAmount)) != "#ff5733"
  {
    var orig, dull := Rgb(255, 87, 51), Rgb(235, 101, 71);
    ToHexExample();
    DesaturateChannels();
    ToHexInjective(dull, orig);
  }

  /** `desaturate(20)` on `#ff5733` is no longer `#ff5733`. */
  lemma DesaturateExample(c: Rgb)
    requires c == Rgb(255, 87, 51)
    ensures Desaturate(c, DefaultAmount) != "#ff5733"
  {
    ToHslExample();
    DesaturateHex();
  }

  /** White darkened by 100 is black, and black lightened by 100 is white. */
  lemma ExtremesExample(white: Rgb, black: Rgb)
    requires white == Rgb(255, 255, 255) && black == Rgb(0, 0, 0)
    ensures Darken(white, 100) == "#000000"
    ensures Lighten(black, 100) == "#ffffff"
  {
  }

  /** An amount of 200 overshoots in either direction: white and black. */
  lemma OvershootExample(c: Rgb)
    requires c == Rgb(255, 87, 51)
    ensures Lighten(c, 200) == "#ffffff"
    ensures Darken(c, 200) == "#000000"
  {
  }
}

=== FILE: values.dfy ===
/**
 * The values the colour library works on: the canonical RGB triple a colour
 * handle holds, the integer HSL view derived from it, the two parse errors,
 * and the result types that replace thrown exceptions and `null`.
 */
module ColorValues {

  /** An RGB triple `{ r, g, b }`. Every colour a handle holds is in range. */
  datatype Rgb = Rgb(r: int, g: int, b: int) {
    predicate InRange() {
      0 <= r <= 255 && 0 <= g <= 255 && 0 <= b <= 255
    }

    predicate IsGray() {
      r == g == b
    }
  }

  /** The gray whose three channels are `v`. */
  function Gray(v: int): (c: Rgb)
    ensures c.IsGray() && c.r == v
  {
    Rgb(v, v, v)
  }

  /** The integer `{ h, s, l }` view: degrees and two percentages. */
  datatype Hsl = Hsl(h: int, s: int, l: int) {
    /** Saturation and lightness are percentages (hue is free). */
    predicate InRange() {
      0 <= s <= 100 && 0 <= l <= 100
    }
  }

  /** The two messages the library throws. */
  datatype ColorError = UnsupportedFormat | InvalidRgbFormat

  datatype Option<T> = None | Some(value: T)

  datatype Result<T> = Ok(value: T) | Err(error: ColorError)

  /** A JavaScript argument: a string, or anything that is not one. */
  datatype JsValue = JsString(s: string) | NonString

  predicate StartsWith(s: string, prefix: string) {
    |prefix| <= |s| && s[..|prefix|] == prefix
  }
}
